=== FILE: README.md ===
# Mav File System storage core, modelled in Dafny

`mfs.c` is a single-image file system held in memory: a 65,536 × 1,024-byte
block store. It holds a 256-entry directory, a 256-entry inode table and free
flags for inodes and for blocks. Blocks 790 and above hold file contents. A
command loop reads one command per line and runs it against the image:

- `createfs`, `open`, `savefs` and `close` manage the image;
- `insert`, `delete`, `undel`, `read`, `list`, `df` and `attrib` work on
  the files inside it.

The model is functional. A session `FS` holds a `Disk` together with the
program's two global flags, `image_open` and `is_saved`. A `Disk` holds the
directory, the inodes, both bitmaps and the data blocks. Every command is a
function from a session to an `Outcome`, which pairs a status `Code` with the
next session. A command that produces a value returns a `Result` instead.
Each message the program prints has its own `Code`. Four further codes,
`FileTooLarge`, `Unallocated`, `Conflict` and `NameTaken`, are never printed
by the program: the model uses them where it refuses what the program would
do wrongly. Host files
become parameters: the bytes `insert` copies in, the image `open` loads, and
the image `savefs` writes.

Files:

- `layout.dfy`: the constants and the data model.
- `alloc.dfy`: the first-fit scans and the free-block count.
- `tables.dfy`: block lists, directory lookups, and the storage invariant
  `Consistent` with its accounting lemma.
- `insert.dfy`, `remove.dfy`, `read.dfy`, `listing.dfy`, `attrib.dfy` and
  `space.dfy`: one command each. `remove.dfy` holds both `delete` and `undel`.
- `lifecycle.dfy`: `init`, `createfs`, `open`, `savefs`, `close`, and the
  two flags.

The storage invariant `Consistent` has five parts:

1. Every block an inode lists before its first `-1` is a data block, and no
   block is listed twice. This holds for every inode, in use or not.
2. No block belongs to two in-use inodes.
3. A data block is flagged free exactly when no in-use inode owns it.
4. In-use directory entries and in-use inodes correspond one to one.
5. The tables have their fixed sizes.

The file system is also meant to keep the names of in-use files unique
(`UniqueNames`), since a lookup takes the first match. The source's `insert`
and `undel` never check for a taken name, so this is a separate predicate and
its own Findings rows.

The source does not keep this invariant: its `delete`, `undel` and `insert`
each break it. Those defects are listed under Findings. For each one, the
model gives the command as written, a lemma that shows the invariant break,
and a corrected command that keeps the invariant.

## Model

| member | source | states |
|---|---|---|
| Alloc.FindFreeBlock | mfs.c:68-79 | -1 exactly when no flag of the bitmap is set; otherwise the lowest set flag's index plus 790, which is not the index of that flag |
| Alloc.FindFreeBlockReportsUsedBlock | mfs.c:71-76 | with flag 0 set and block 790 in use, `findFreeBlock` reports block 790, which is not free, and the corrected scan never reports it |
| Alloc.FindFreeDataBlock | mfs.c:67-79 | the corrected scan: a free data block with no free data block below it, or None exactly when no data block is free |
| Alloc.FindFreeDataBlockIsFirstFit | mfs.c:67-79 | the corrected scan picks the same block a one-block insert claims |
| Alloc.FindFreeInode | mfs.c:82-94 | -1 exactly when no inode flag is set; otherwise the lowest set flag |
| Alloc.FindFreeInodeBlock | mfs.c:97-110 | -1 exactly when the block list has no -1; otherwise the first position holding -1 |
| Tables.FindFreeInodeBlockIsHeldCount | mfs.c:97-110 | the free position `findFreeInodeBlock` reports is the number of blocks the inode owns |
| Tables.Lookup | mfs.c:131-134 | the first in-use entry with exactly this name, or None exactly when no in-use entry has it |
| Tables.LookupDeleted | mfs.c:189-192 | the first entry NOT in use with exactly this name, or None exactly when there is none |
| Tables.FreeDirectorySlot | mfs.c:432-452 | the lowest directory slot not in use, or None exactly when every slot is in use |
| Tables.FreeInodeSlot | mfs.c:432-458 | the lowest inode whose `in_use` is clear, or None exactly when all are in use |
| Tables.FreeCountAccounting | mfs.c:559-573 | under the invariant, the free data blocks are the 64,746 data blocks less the blocks the in-use inodes own, summed per inode |
| Tables.ResetDisk | mfs.c:526-547 | the reset tables satisfy the invariant. Every directory entry has no name, inode -1 and clear flags. Every inode is out of use, with -1 throughout its block list and zero attribute and size. Every flag of both bitmaps is set, and the blocks are kept |
| Alloc.CountFreeData | mfs.c:473-478 | the counting loop over blocks 790 to 65535 computes the number of free data blocks |
| Alloc.FirstFitIsLowest | mfs.c:495-504 | the blocks insert claims are free data blocks in ascending order, and every free data block left unclaimed lies above all of them |
| Alloc.MarkUsedCount | mfs.c:502 | claiming distinct free data blocks removes exactly those blocks from the free set and the count |
| Alloc.MarkFreeCount | mfs.c:154 | releasing distinct in-use data blocks adds exactly those blocks to the free set and the count |
| Insert.RequiredBlocks | mfs.c:471 | the number of blocks is the fewest whose total size covers the file |
| Insert.PlanInsertAsWritten | mfs.c:423-504 | insert's checks in the source's order. Each refusal, and success, holds exactly under its own condition: the name fits, both tables have a free slot, the host file opened and the free data blocks suffice. On success the plan uses the first free slot and inode and claims the first-fit blocks, with no upper bound on their number |
| Insert.PlanInsert | mfs.c:471-504 | the corrected plan refuses with FileTooLarge exactly when the file needs more blocks than a block list holds, and agrees with the source's plan otherwise |
| Insert.Insert | mfs.c:413-509 | with no image open, nothing changes and the status is NotOpen (the guard at mfs.c:1009-1013). Otherwise `is_saved` is cleared. NameTooLong, NoDirectorySlot, NoInodeSlot, SourceNotFound, InsufficientSpace and Ok each hold exactly under their own condition, in the source's order. FileTooLarge is the model's own check, placed after InsufficientSpace, and also holds exactly under its condition. A refusal leaves the disk as it was |
| Insert.AllocateFirstFit | mfs.c:495-504 | the claiming loop takes exactly the first-fit blocks and clears exactly their free flags |
| Insert.InsertDuplicatesName | mfs.c:413-509 | with a name an in-use file already carries and every other check passing, the source's insert succeeds and leaves two in-use entries with that name |
| Insert.InsertUnique | mfs.c:413-509 | the corrected insert refuses with NameTaken exactly when an image is open and an in-use file has the name; it then only clears `is_saved`. Otherwise it is the insert above |
| Insert.InsertUniqueKeepsNamesUnique | mfs.c:413-509 | the corrected insert keeps the names of in-use files unique |
| Insert.InsertRecordsFile | mfs.c:487-503 | a success writes the name into the first free slot and links it to the first free inode. That inode owns exactly the first-fit blocks. Their flags are cleared. Every other entry, inode, flag and data block is unchanged |
| Insert.InsertStoresContent | mfs.c:496-501 | byte `t` of the host file is at offset `t % 1024` of the file's `t / 1024`-th block |
| Insert.InsertSpaceAccounting | mfs.c:480-502 | a successful insert lowers the free-block count by exactly the blocks the file needs |
| Insert.InsertPreservesConsistent | mfs.c:413-509 | insert keeps the storage invariant |
| Insert.StoreAsWritten | mfs.c:487-503 | the source's update writes the claimed numbers over the front of the reused inode's block list and keeps whatever follows them. It writes the new entry into the slot, marks the inode in use, and clears exactly the claimed blocks' flags. The data blocks match the corrected update. Every other entry and inode is unchanged |
| Insert.StaleBlockBreaksBitmap | mfs.c:501 | if a reused inode still lists a free block right after the new file's blocks, the source's update leaves the file owning a block flagged free |
| Insert.StorePreservesConsistent | mfs.c:487-503 | the corrected update, which writes -1 after the claimed blocks, keeps the storage invariant |
| Insert.OversizedPlanOverrunsBlockList | mfs.c:471-504 | a file one byte larger than a block list can address passes every check of the source and claims 1,025 blocks for a 1,024-entry list |
| Insert.OversizedInsertRefused | mfs.c:471-504 | the corrected insert refuses that file with FileTooLarge and leaves the disk unchanged |
| Remove.DeleteTarget | mfs.c:123-164 | succeeds exactly when an image is open, an in-use entry has the name and its first such entry is not read-only. Each failure reports its own condition |
| Remove.Delete | mfs.c:117-167 | `is_saved` is cleared before any check. The status is Ok exactly when the target checks pass. A refusal leaves the disk as it was |
| Remove.DeleteReleasesFile | mfs.c:145-155 | a successful delete clears the `in_use` flags of the entry and its inode, frees exactly the file's blocks, and changes nothing else. The entry keeps its name, inode number and block list |
| Remove.DeleteSpaceAccounting | mfs.c:149-155 | under the invariant, a delete raises the free-block count by exactly the number of blocks the file owned |
| Remove.DeletePreservesConsistent | mfs.c:117-167 | the corrected delete keeps the storage invariant |
| Remove.DeleteAsWritten | mfs.c:150-155 | the source's delete gives the same status as the corrected one, and the same state on every refusal |
| Remove.DeleteAsWrittenLeaksBlocks | mfs.c:150-155 | when a file's first block is 1,024 or higher, the source's loop stops before its first pass. None of the file's blocks is freed, so blocks no file owns stay flagged in use |
| Remove.DeleteAsWrittenFreesOtherFiles | mfs.c:150-155 | when the source's range covers a block of another file, the source's delete flags that file's block free |
| Remove.UndelTarget | mfs.c:179-223 | succeeds only for the first entry not in use with the name whose inode is also not in use. The NotOpen, NotFound and NotDeleted refusals each hold exactly under their own condition |
| Remove.Undel | mfs.c:174-225 | `is_saved` is cleared before any check. The status is Ok exactly when the target checks pass. A refusal leaves the disk as it was |
| Remove.UndelRevivesFile | mfs.c:196-206 | a successful undel sets the `in_use` flags of the first deleted entry with the name and of its inode. It flags exactly the blocks the inode holds as in use, and changes nothing else |
| Remove.UndelAsWritten | mfs.c:202-206 | the source's undel gives the same status as the corrected one, and the same state on every refusal |
| Remove.UndelAsWrittenLeavesBlocksFree | mfs.c:202-206 | when the file's first block is at or above 1,024, the source's undel revives the file but leaves its blocks flagged free |
| Remove.UndelRevivesTakenBlock | mfs.c:196-206 | when a later insert has reused a block of the deleted file, undel still succeeds and two files then own that block |
| Remove.UndelChecked | mfs.c:174-225 | the corrected undel refuses with Conflict exactly when a block of the file is no longer free, and otherwise behaves as the source's undel |
| Remove.UndelDuplicatesName | mfs.c:174-225 | when a live file has taken the name of a deleted one whose inode is free, the source's undel succeeds and leaves two in-use entries with that name |
| Remove.UndelUnique | mfs.c:174-225 | the name-checked undel refuses with NameTaken exactly when an image is open and an in-use file has the name; it then only clears `is_saved`. Otherwise it is the checked undel |
| Remove.UndelUniqueKeepsNamesUnique | mfs.c:174-225 | the name-checked undel keeps the names of in-use files unique |
| Remove.DeleteKeepsNamesUnique | mfs.c:117-167 | delete keeps the names of in-use files unique |
| Remove.UndelCheckedPreservesConsistent | mfs.c:174-225 | the corrected undel keeps the storage invariant |
| Remove.UndelSpaceAccounting | mfs.c:196-206 | a successful corrected undel lowers the free-block count by exactly the blocks the file owns |
| Remove.DeleteUndelRoundTrip | mfs.c:117-225 | deleting a file and then undeleting it restores the disk exactly, with only `is_saved` left cleared. This needs only that no deleted entry before the file's slot has the same name |
| Remove.DeletedEntryIsUndelTarget | mfs.c:189-196 | after a delete, undel finds that same entry, none of its blocks has been taken, and its inode is free |
| Remove.ReleaseReclaim | mfs.c:145-206 | reclaiming a released file gives back exactly the disk before the release |
| Reading.Chunks | mfs.c:283-299 | the read loop's chunks cover exactly the requested byte count, one consecutive block each. Only the first chunk starts mid-block, and every chunk but the last runs to the end of its block |
| Reading.ReadFile | mfs.c:231-301 | NotOpen, NotFound, InvalidStart and InvalidCount each hold exactly under the source's range checks, in the source's order. A read succeeds exactly when all four checks pass and every block-list position the range touches names a block. A success returns exactly `count` bytes |
| Reading.ReadBlocks | mfs.c:283-299 | the loop returns exactly `count` bytes. It succeeds exactly when every position from `start / 1024` to `(start + count - 1) / 1024` names a block, and otherwise fails with Unallocated |
| Reading.AllocatedRange | mfs.c:283-299 | the positions the read loop visits are exactly `start / 1024` to `(start + count - 1) / 1024` |
| Reading.ChunksCount | mfs.c:287-299 | the loop makes one pass per block the range touches |
| Reading.ReadFileBytes | mfs.c:283-299 | byte `t` of a successful read is file byte `start + t`: offset `(start + t) % 1024` of the block at position `(start + t) / 1024` of the file's block list |
| Reading.EmitChunks | mfs.c:287-299 | the bytes the chunked loop prints are the file's consecutive bytes from the starting offset |
| Reading.InsertReadRoundTrip | mfs.c:231-301 | reading a newly inserted file from byte 0 for its full length returns exactly the inserted bytes |
| Reading.InsertedFileFound | mfs.c:244-253 | when no in-use file had the name, a lookup after insert finds the new entry, which links to the new inode |
| Listing.ParseListFlags | mfs.c:320-367 | each flag argument is absent, `-h` or `-a`, and any other value is refused. Hidden entries are shown exactly when one argument is `-h`, and markers exactly when one is `-a` |
| Listing.List | mfs.c:311-407 | NotOpen exactly when no image is open (the guard at mfs.c:988-992). InvalidFlag exactly when a flag argument is invalid. Success exactly when an image is open and both flags are valid |
| Listing.ListShowsEntries | mfs.c:369-406 | the listing contains every shown entry exactly once, in table order, with its name and markers. It is empty ("Directory is empty") exactly when no entry is shown |
| Listing.ListFlagsGovernOutput | mfs.c:374-396 | markers appear only with `-a`, and hidden entries only with `-h` |
| Attributes.ParseAttrib | mfs.c:697-717 | `+h`, `-h`, `-r` and `+r` each select their own change. Any other argument is a usage error |
| Attributes.ApplyAttrib | mfs.c:730-749 | the change sets or clears exactly one flag, and the name, in-use flag and inode stay as they were |
| Attributes.Attrib | mfs.c:686-766 | a usage error exactly when the argument is invalid. NotFound exactly when no in-use entry has the name. A refusal changes nothing. A success changes only the first matching entry and clears `is_saved` |
| Attributes.AttribSetsFlag | mfs.c:723-765 | for a valid argument and an in-use file, the first matching entry gets exactly that flag change |
| Attributes.AttribAsWritten | mfs.c:723-765 | the source's loop succeeds exactly when the argument is valid and entry 0 itself is the in-use file. It then applies the change to entry 0, with the same result as the full search |
| Attributes.AttribAsWrittenMissesLaterFiles | mfs.c:759-763 | if the file's first in-use entry is not in slot 0, the source's attrib reports the file as not found, while the corrected one succeeds |
| Attributes.AttribPreservesConsistent | mfs.c:686-766 | attribute changes keep the storage invariant |
| Attributes.AttribKeepsNamesUnique | mfs.c:686-766 | attribute changes keep the names of in-use files unique |
| Attributes.ReadOnlyBlocksDelete | mfs.c:137-141 | after a successful `+r`, deleting the file is refused as read-only and leaves the disk as it was |
| Space.Df | mfs.c:559-573 | NotOpen exactly when no image is open (the guard at mfs.c:998-1002). Otherwise a whole number of blocks' worth of bytes, no more than the data region, which fits the unsigned 32-bit return type |
| Space.DfAccounting | mfs.c:559-573 | under the invariant, `df` is the data region less the blocks the files own, in bytes |
| Space.InsertLowersDf | mfs.c:471-502 | a successful insert lowers `df` by exactly 1,024 bytes per block the file needs |
| Space.DeleteRaisesDf | mfs.c:149-155 | a corrected delete raises `df` by exactly 1,024 bytes per block the file owned |
| Space.DfCount | mfs.c:561-572 | the counting loop computes the same value as `Df` |
| Lifecycle.Init | mfs.c:513-549 | the start-up state is closed and not saved. It is consistent, with every entry and inode reset, every flag of both bitmaps set and every block zero. This is the evident intent; see Left out for what the source's aliased tables leave instead |
| Lifecycle.CreateFs | mfs.c:579-618 | the image is open and not saved, whatever was there before. Every entry and inode is reset, every flag of both bitmaps is set, every block is zero, and the disk is consistent. This is the evident intent; see Left out |
| Lifecycle.OpenFs | mfs.c:649-660 | the loaded image replaces the disk, which is then open and not saved |
| Lifecycle.SaveFs | mfs.c:624-643 | `is_saved` is set whether or not an image is open. An open image is handed to the host to be written, otherwise the status is NotOpen. The source's loss of the file name after the first save is left out |
| Lifecycle.CloseFs | mfs.c:666-680 | `is_saved` is set and no image is left open. The status is NotOpen exactly when none was open |
| Lifecycle.FlagsStateMachine | mfs.c:880-1093 | with an image open, insert, delete, undel and a successful attrib clear `is_saved`, and `savefs` and `close` set it. With none open, every command that needs an image refuses with NotOpen and changes no table |

## Left out

- Host I/O. `fopen`, `fread`, `fwrite`, `fclose` and `image_name` are left
  out. The bytes `insert` reads become a parameter, which is `None` when the
  host file cannot be opened. `open` receives the image it loads. `savefs`
  returns the image it writes.
- Lifecycle.SaveFs: `savefs` clears `image_name` after writing (mfs.c:641)
  and the image stays open. A second `savefs` in the same session therefore
  calls `fopen("", "w")`, which fails, and then `fwrite` on the null stream
  (mfs.c:637-639), so nothing is written. The model has no file name: every
  `savefs` on an open image returns the disk to be written.
- `retrieve` (mfs.c:771-875) is not modelled. It only copies blocks out to a
  host file.
- The command loop (mfs.c:880-1093) is modelled only through the guards it
  places in front of `insert`, `list` and `df`. Tokenizing, `atoi` of the
  read arguments and the per-command argument checks are left out. Because of
  those argument checks, names are never empty, and `Undel` requires a
  non-empty name.
- `savefs` when `is_saved` is already set (mfs.c:948-952), and `quit`
  (mfs.c:957-968). These are command-loop refusals with no effect on the
  image.
- Printing. Hex output, listing text and messages become return values,
  `Line` records and status codes.
- Layout of the tables inside the block store. The source points the tables
  into the block store (mfs.c:517-520):
  - the directory (256 × 76 bytes) is at block 0, filling blocks 0-18;
  - the inode bitmap is at block 19;
  - the inode table is at block 20. An inode is 4,104 bytes, so the table
    fills blocks 20-1045;
  - the block bitmap is at block 277, inside the inode table. It lies over
    inodes 64-80, including the `in_use` fields of inodes 64-79.

  Data blocks 790-1045 therefore overlap inodes 192-255. The model keeps the
  tables as separate sequences, so no write to one can reach another.
- Out-of-range writes in `init` and `createfs`. Their reset loops index each
  inode's 1,024-entry block list up to 65,536 (mfs.c:535-537, 602-604). In
  the source these loops write -1 through the following inodes and on up to
  block 1297. The model resets each list to its own length only.
- Lifecycle.Init and Lifecycle.CreateFs: the model gives the reset the code
  evidently intends, not what the aliasing above leaves behind.
  - The bitmap reset (mfs.c:544-547, 613-616) runs after the inode reset. It
    leaves the `in_use` fields of inodes 64-79 non-zero and writes
    0x01010101 over parts of their block lists.
  - The -1 overrun runs after the `memset` at mfs.c:586. It leaves blocks
    790-1297 holding 0xFF, apart from the zeroed flag and size fields of
    inodes 192-255, instead of zero.

  So in the source, a read past a new short file's end within its block
  returns 0xFF, where the model returns 0.
- Insert.Insert: in the source, after `init` or `createfs`, inodes 64-79
  read as in use. The 241st insert into a fresh image is therefore refused
  with "No available inode". The model gives NoInodeSlot only when all 256
  inodes are in use, and never lets data blocks overlap the inode table.
- Insert.Insert: names are sequences of characters, each standing for one
  byte of the C string. A name whose encoding uses several bytes per
  character is measured in characters, not in the bytes `strlen` counts
  (mfs.c:423). Lookups compare names for equality, as `strcmp` does.
- Reading.ReadFile: when the requested range reaches a block-list entry that
  names no block, the source indexes the block store with that entry. For -1
  this reads before the store. The model stops with `Unallocated` instead.
- Lifecycle.OpenFs: the model requires a well-formed image. The source reads
  whatever file it is given, and does not check that the file exists.
- Remove.DeleteAsWritten and Remove.UndelAsWritten: when a file owns no
  blocks, the source's range starts at -1, and the write it makes before the
  bitmap is dropped.
- Insert.Insert: `file_size`, `attribute` and the inode bitmap are never
  written by the source. The model leaves them untouched as well.
- Attributes.Attrib: like the source, it has no open-image check. It changes
  the tables of whatever image was last loaded.

## Findings

| source | as written | input that shows it | evidently intended | confidence | as-written member | corrected member |
|---|---|---|---|---|---|---|
| mfs.c:150-155 | `delete` flags as free every bitmap index from the file's first block number up to 1,024, comparing a block number with a block count | a file whose first block is 1,024 or higher: no flag changes, although the file no longer owns its blocks. A file whose first block is between 790 and 1,023: every flag from there up to 1,023 is set, including other files' blocks | free exactly the blocks the file's list holds | high; not executed | Remove.DeleteAsWritten (Remove.DeleteAsWrittenLeaksBlocks, Remove.DeleteAsWrittenFreesOtherFiles) | Remove.Delete (Remove.DeletePreservesConsistent, Remove.DeleteSpaceAccounting) |
| mfs.c:202-206 | `undel` clears the same numeric range of flags | a deleted file whose first block is 1,024 or higher: the file is revived but its blocks stay flagged free | flag exactly the file's blocks in use | high; not executed | Remove.UndelAsWritten (Remove.UndelAsWrittenLeavesBlocksFree) | Remove.UndelChecked (Remove.UndelCheckedPreservesConsistent) |
| mfs.c:196-206 | `undel` does not check whether the deleted file's blocks were reused | delete a file, insert another that claims one of its blocks, then undel the first | refuse the undel (or leave those blocks out) | medium; not executed | Remove.Undel, the range-corrected undel without a reuse check (Remove.UndelRevivesTakenBlock) | Remove.UndelChecked (Remove.DeleteUndelRoundTrip, Remove.UndelCheckedPreservesConsistent) |
| mfs.c:413-509 | `insert` never looks for an in-use entry with the same name | insert a file, then insert another host file under the same name into an open image with room | refuse a name an in-use file carries, as the lookup's first-match rule needs | medium; not executed | Insert.Insert (Insert.InsertDuplicatesName) | Insert.InsertUnique (Insert.InsertUniqueKeepsNamesUnique) |
| mfs.c:174-225 | `undel` never looks for an in-use entry with the name it revives | insert `x` and then `a`, delete both, insert a new `a` no larger than `x` (it takes slot 0, inode 0 and the blocks `x` held), then undel `a`: slot 1 is revived | refuse the undel while the name is taken | medium; not executed | Remove.Undel (Remove.UndelDuplicatesName) | Remove.UndelUnique (Remove.UndelUniqueKeepsNamesUnique) |
| mfs.c:759-763 | the `else` of the name comparison inside the loop reports "not found" at the first entry that does not match | a file in directory slot 1 with slot 0 holding another name: attrib reports the file as not found | search the whole directory and report "not found" only after the loop | high; not executed | Attributes.AttribAsWritten (Attributes.AttribAsWrittenMissesLaterFiles) | Attributes.Attrib (Attributes.AttribSetsFlag) |
| mfs.c:495-503 | insert overwrites only the first `required_blocks` entries of a reused inode's block list | reuse an inode whose old list still holds a free block right after the new file's blocks | write -1 after the new file's blocks | high; not executed | Insert.StoreAsWritten (Insert.StaleBlockBreaksBitmap) | Insert.Store (Insert.StorePreservesConsistent) |
| mfs.c:471-504 | insert never compares `required_blocks` with the 1,024 entries of a block list | a host file of 1,024 × 1,024 + 1 bytes on an empty image | refuse files larger than a block list can address | high; not executed | Insert.PlanInsertAsWritten (Insert.OversizedPlanOverrunsBlockList) | Insert.PlanInsert (Insert.OversizedInsertRefused) |
| mfs.c:71-76 | `findFreeBlock` scans from flag 0 but returns the index plus 790 | bitmap with flag 0 set and block 790 in use: it reports block 790 | return the lowest free data block's own index | high; not executed | Alloc.FindFreeBlock (Alloc.FindFreeBlockReportsUsedBlock) | Alloc.FindFreeDataBlock (Alloc.FindFreeDataBlockIsFirstFit) |

=== FILE: alloc.dfy ===
/**
 First-fit allocation over the free-flag bitmaps: the lookups `findFreeBlock`,
 `findFreeInode` and `findFreeInodeBlock`, the free-block count shared by
 insert and df, and the block-claiming loop of insert.
 */
module Alloc {
  import opened Layout

  /** Lowest index whose element satisfies `p`: the linear scan every lookup of the program performs. */
  function FirstIndex<T>(s: seq<T>, p: T -> bool): (r: Option<nat>)
    ensures r.Some? ==> r.value < |s| && p(s[r.value])
    ensures r.Some? ==> forall j :: 0 <= j < r.value ==> !p(s[j])
    ensures r.None? ==> forall j :: 0 <= j < |s| ==> !p(s[j])
  {
    FirstIndexFrom(s, p, 0)
  }

  function FirstIndexFrom<T>(s: seq<T>, p: T -> bool, i: nat): (r: Option<nat>)
    requires i <= |s|
    ensures r.Some? ==> i <= r.value < |s| && p(s[r.value])
    ensures r.Some? ==> forall j :: i <= j < r.value ==> !p(s[j])
    ensures r.None? ==> forall j :: i <= j < |s| ==> !p(s[j])
    decreases |s| - i
  {
    if i == |s| then None
    else if p(s[i]) then Some(i)
    else FirstIndexFrom(s, p, i + 1)
  }

  /** All indices at or after `i` whose element satisfies `p`, in ascending order. */
  function IndicesFrom<T>(s: seq<T>, p: T -> bool, i: nat): (r: seq<int>)
    requires i <= |s|
    ensures forall k :: 0 <= k < |r| ==> i <= r[k] < |s| && p(s[r[k]])
    ensures forall k, m :: 0 <= k < m < |r| ==> r[k] < r[m]
    ensures forall j :: i <= j < |s| && p(s[j]) ==> j in r
    decreases |s| - i
  {
    if i == |s| then []
    else if p(s[i]) then [i] + IndicesFrom(s, p, i + 1)
    else IndicesFrom(s, p, i + 1)
  }

  /** The literal `findFreeBlock`: scans the whole bitmap from 0 but reports
      the index shifted by FIRST_DATA_BLOCK; -1 when nothing is free.
      Modelled as written (nothing in the program calls it). */
  function FindFreeBlock(free: seq<bool>): (r: int)
    requires |free| == NUM_BLOCKS
    ensures r == -1 <==> forall j :: 0 <= j < NUM_BLOCKS ==> !free[j]
    ensures r != -1 ==> FIRST_DATA_BLOCK <= r < NUM_BLOCKS + FIRST_DATA_BLOCK && free[r - FIRST_DATA_BLOCK]
    ensures r != -1 ==> forall j :: 0 <= j < r - FIRST_DATA_BLOCK ==> !free[j]
  {
    match FirstIndex(free, (f: bool) => f)
    case Some(i) => i + FIRST_DATA_BLOCK
    case None => -1
  }

  /** What `findFreeBlock` evidently means: the lowest free data block. */
  function FindFreeDataBlock(free: seq<bool>): (r: Option<nat>)
    requires |free| == NUM_BLOCKS
    ensures r.Some? ==> IsDataBlock(r.value) && free[r.value]
    ensures r.Some? ==> forall j :: FIRST_DATA_BLOCK <= j < r.value ==> !free[j]
    ensures r.None? <==> forall j :: IsDataBlock(j) ==> !free[j]
  {
    FirstIndexFrom(free, (f: bool) => f, FIRST_DATA_BLOCK)
  }

  /** With block 0 marked free and block FIRST_DATA_BLOCK in use, the literal
      `findFreeBlock` reports the used block FIRST_DATA_BLOCK, while the corrected
      search skips it. */
  lemma FindFreeBlockReportsUsedBlock(free: seq<bool>)
    requires |free| == NUM_BLOCKS
    requires free[0] && !free[FIRST_DATA_BLOCK]
    ensures FindFreeBlock(free) == FIRST_DATA_BLOCK && !free[FindFreeBlock(free)]
    ensures FindFreeDataBlock(free) != Some(FIRST_DATA_BLOCK)
  {
  }

  /** `findFreeInode`: lowest free slot of the inode bitmap, or -1. */
  function FindFreeInode(freeInodes: seq<bool>): (r: int)
    requires |freeInodes| == NUM_FILES
    ensures -1 <= r < NUM_FILES
    ensures r == -1 <==> forall j :: 0 <= j < NUM_FILES ==> !freeInodes[j]
    ensures r != -1 ==> freeInodes[r] && forall j :: 0 <= j < r ==> !freeInodes[j]
  {
    match FirstIndex(freeInodes, (f: bool) => f)
    case Some(i) => i
    case None => -1
  }

  /** `findFreeInodeBlock`: first position of the block list holding the sentinel, or -1. */
  function FindFreeInodeBlock(ino: Inode): (r: int)
    requires |ino.blocks| == BLOCKS_PER_FILE
    ensures -1 <= r < BLOCKS_PER_FILE
    ensures r == -1 <==> forall k :: 0 <= k < BLOCKS_PER_FILE ==> ino.blocks[k] != SENTINEL
    ensures r != -1 ==> ino.blocks[r] == SENTINEL && forall k :: 0 <= k < r ==> ino.blocks[k] != SENTINEL
  {
    match FirstIndex(ino.blocks, (b: int) => b == SENTINEL)
    case Some(k) => k
    case None => -1
  }

  /** The free blocks at or above `i`, lowest first. */
  function FreeFrom(free: seq<bool>, i: nat): seq<int>
    requires i <= |free|
  {
    IndicesFrom(free, (f: bool) => f, i)
  }

  /** The free data blocks, lowest first. */
  function FreeDataList(free: seq<bool>): seq<int>
    requires |free| == NUM_BLOCKS
  {
    FreeFrom(free, FIRST_DATA_BLOCK)
  }

  ghost function ToSet(s: seq<int>): set<int> {
    set x | x in s
  }

  /** The free data blocks as a set: indices in [FIRST_DATA_BLOCK, NUM_BLOCKS) flagged free. */
  function FreeDataSet(free: seq<bool>): set<int>
    requires |free| == NUM_BLOCKS
  {
    set j | FIRST_DATA_BLOCK <= j < NUM_BLOCKS && free[j]
  }

  /** The count insert compares against and df multiplies by BLOCK_SIZE. */
  function FreeDataCount(free: seq<bool>): nat
    requires |free| == NUM_BLOCKS
  {
    |FreeDataSet(free)|
  }

  /** A list without repetitions has as many elements as its set. */
  lemma {:induction false} DistinctCard(s: seq<int>)
    requires Distinct(s)
    ensures |ToSet(s)| == |s|
  {
    if s != [] {
      var rest := s[1..];
      assert Distinct(rest);
      DistinctCard(rest);
      assert ToSet(s) == ToSet(rest) + {s[0]};
      assert s[0] !in ToSet(rest);
    }
  }

  /** The free-block list holds exactly the free data blocks, once each. */
  lemma FreeDataListCount(free: seq<bool>)
    requires |free| == NUM_BLOCKS
    ensures ToSet(FreeDataList(free)) == FreeDataSet(free)
    ensures |FreeDataList(free)| == FreeDataCount(free)
  {
    var l := FreeDataList(free);
    assert Distinct(l);
    DistinctCard(l);
  }

  /** The first `k` free data blocks: the blocks insert claims for a `k`-block file. */
  function FirstFit(free: seq<bool>, k: nat): (r: seq<int>)
    requires |free| == NUM_BLOCKS
    requires k <= FreeDataCount(free)
    ensures |r| == k
  {
    FreeDataListCount(free);
    FreeDataList(free)[..k]
  }

  /** The bitmap with every block of `claimed` flagged allocated. */
  function MarkUsed(free: seq<bool>, claimed: seq<int>): (r: seq<bool>)
    ensures |r| == |free|
    ensures forall j :: 0 <= j < |free| ==> (r[j] <==> free[j] && j !in claimed)
  {
    seq(|free|, j requires 0 <= j < |free| => free[j] && j !in claimed)
  }

  /** The bitmap with every block of `released` flagged free. */
  function MarkFree(free: seq<bool>, released: seq<int>): (r: seq<bool>)
    ensures |r| == |free|
    ensures forall j :: 0 <= j < |free| ==> (r[j] <==> free[j] || j in released)
  {
    seq(|free|, j requires 0 <= j < |free| => free[j] || j in released)
  }

  /** Blocks claimed by first fit are free data blocks, ascending, and no
      free data block left unclaimed lies below any claimed one. */
  lemma FirstFitIsLowest(free: seq<bool>, k: nat)
    requires |free| == NUM_BLOCKS
    requires k <= FreeDataCount(free)
    ensures forall m :: 0 <= m < k ==> IsDataBlock(FirstFit(free, k)[m]) && free[FirstFit(free, k)[m]]
    ensures forall m, n :: 0 <= m < n < k ==> FirstFit(free, k)[m] < FirstFit(free, k)[n]
    ensures forall j, m :: IsDataBlock(j) && free[j] && j !in FirstFit(free, k) && 0 <= m < k ==>
              FirstFit(free, k)[m] < j
  {
    FreeDataListCount(free);
    var l := FreeDataList(free);
    var a := FirstFit(free, k);
    assert a == l[..k];
    forall j, m | IsDataBlock(j) && free[j] && j !in a && 0 <= m < k
      ensures a[m] < j
    {
      assert j in l;
      var n :| 0 <= n < |l| && l[n] == j;
      assert n >= k;
      assert l[m] < l[n];
    }
  }

  /** Corrected findFreeBlock picks the block a one-block insert would claim. */
  lemma FindFreeDataBlockIsFirstFit(free: seq<bool>)
    requires |free| == NUM_BLOCKS
    requires FreeDataCount(free) > 0
    ensures FindFreeDataBlock(free) == Some(FirstFit(free, 1)[0])
  {
    FirstFitIsLowest(free, 1);
    var b := FirstFit(free, 1)[0];
    var r := FindFreeDataBlock(free);
    assert r.Some?;
    assert b >= r.value;
  }

  /** Claiming `claimed` distinct free data blocks removes exactly them from the free count. */
  lemma {:induction false} MarkUsedCount(free: seq<bool>, claimed: seq<int>)
    requires |free| == NUM_BLOCKS
    requires Distinct(claimed)
    requires forall m :: 0 <= m < |claimed| ==> IsDataBlock(claimed[m]) && free[claimed[m]]
    ensures FreeDataSet(MarkUsed(free, claimed)) == FreeDataSet(free) - ToSet(claimed)
    ensures FreeDataCount(MarkUsed(free, claimed)) == FreeDataCount(free) - |claimed|
  {
    var after := MarkUsed(free, claimed);
    assert FreeDataSet(after) == FreeDataSet(free) - ToSet(claimed);
    assert ToSet(claimed) <= FreeDataSet(free);
    DistinctCard(claimed);
  }

  /** Releasing distinct allocated data blocks adds exactly them to the free count. */
  lemma {:induction false} MarkFreeCount(free: seq<bool>, released: seq<int>)
    requires |free| == NUM_BLOCKS
    requires Distinct(released)
    requires forall m :: 0 <= m < |released| ==> IsDataBlock(released[m]) && !free[released[m]]
    ensures FreeDataSet(MarkFree(free, released)) == FreeDataSet(free) + ToSet(released)
    ensures FreeDataCount(MarkFree(free, released)) == FreeDataCount(free) + |released|
  {
    var after := MarkFree(free, released);
    assert FreeDataSet(after) == FreeDataSet(free) + ToSet(released);
    assert ToSet(released) !! FreeDataSet(free);
    DistinctCard(released);
  }

  lemma PrefixOfConcat(a: seq<int>, b: seq<int>, c: seq<int>)
    requires a + b == c
    ensures c[..|a|] == a
  {
    assert c[..|a|] == (a + b)[..|a|];
  }

  lemma MarkUsedStep(free: seq<bool>, claimed: seq<int>, i: nat)
    requires i < |free|
    ensures MarkUsed(free, claimed)[i := false] == MarkUsed(free, claimed + [i])
  {
    var a := MarkUsed(free, claimed)[i := false];
    var b := MarkUsed(free, claimed + [i]);
    forall j | 0 <= j < |free|
      ensures a[j] == b[j]
    {
      assert j in claimed + [i] <==> j in claimed || j == i;
    }
  }

  lemma FreeFromStep(free: seq<bool>, i: nat)
    requires i < |free|
    ensures free[i] ==> FreeFrom(free, i) == [i] + FreeFrom(free, i + 1)
    ensures !free[i] ==> FreeFrom(free, i) == FreeFrom(free, i + 1)
  {
  }

  /** Claiming free block `i` moves it from the unscanned free blocks to the claimed ones. */
  lemma ClaimStep(free: seq<bool>, i: nat, claimed: seq<int>, all: seq<int>)
    requires i < |free|
    requires claimed + FreeFrom(free, i) == all
    ensures free[i] ==> (claimed + [i]) + FreeFrom(free, i + 1) == all
    ensures !free[i] ==> claimed + FreeFrom(free, i + 1) == all
  {
    FreeFromStep(free, i);
    if free[i] {
      assert (claimed + [i]) + FreeFrom(free, i + 1) == claimed + ([i] + FreeFrom(free, i + 1));
    }
  }

  /** The counting loop of df and of insert's space check. */
  method CountFreeData(free: seq<bool>) returns (count: nat)
    requires |free| == NUM_BLOCKS
    ensures count == FreeDataCount(free)
  {
    count := 0;
    var i := FIRST_DATA_BLOCK;
    while i < NUM_BLOCKS
      invariant FIRST_DATA_BLOCK <= i <= NUM_BLOCKS
      invariant count == |set j | FIRST_DATA_BLOCK <= j < i && free[j]|
      decreases NUM_BLOCKS - i
    {
      ghost var before := set j | FIRST_DATA_BLOCK <= j < i && free[j];
      if free[i] {
        assert (set j | FIRST_DATA_BLOCK <= j < i + 1 && free[j]) == before + {i};
        count := count + 1;
      } else {
        assert (set j | FIRST_DATA_BLOCK <= j < i + 1 && free[j]) == before;
      }
      i := i + 1;
    }
    assert (set j | FIRST_DATA_BLOCK <= j < i && free[j]) == FreeDataSet(free);
  }
}

=== FILE: attrib.dfy ===
/**
 `attrib`: set or clear the hidden or read-only flag of a file's directory entry.

 The source's search loop answers "not found" as soon as the first entry does
 not match, so only entry 0 can ever be changed. `Attrib` searches the whole
 table; `AttribAsWritten` keeps the early stop. Neither the source nor its
 command loop checks that an image is open. `is_saved` is cleared only when a
 flag was changed.
 */
module Attributes {
  import opened Layout
  import opened Tables
  import Remove

  /** The four attribute arguments the command accepts. */
  datatype AttribOp = SetHidden | ClearHidden | ClearReadOnly | SetReadOnly

  function ParseAttrib(attribute: string): (r: Option<AttribOp>)
    ensures r == Some(SetHidden) <==> attribute == "+h"
    ensures r == Some(ClearHidden) <==> attribute == "-h"
    ensures r == Some(ClearReadOnly) <==> attribute == "-r"
    ensures r == Some(SetReadOnly) <==> attribute == "+r"
  {
    if attribute == "+h" then Some(SetHidden)
    else if attribute == "-h" then Some(ClearHidden)
    else if attribute == "-r" then Some(ClearReadOnly)
    else if attribute == "+r" then Some(SetReadOnly)
    else None
  }

  /** The entry with exactly the flag of `op` set or cleared. */
  function ApplyAttrib(e: DirEntry, op: AttribOp): (r: DirEntry)
    ensures r.filename == e.filename && r.inUse == e.inUse && r.inode == e.inode
    ensures op == SetHidden ==> r.hidden && r.readOnly == e.readOnly
    ensures op == ClearHidden ==> !r.hidden && r.readOnly == e.readOnly
    ensures op == SetReadOnly ==> r.readOnly && r.hidden == e.hidden
    ensures op == ClearReadOnly ==> !r.readOnly && r.hidden == e.hidden
  {
    match op
    case SetHidden => e.(hidden := true)
    case ClearHidden => e.(hidden := false)
    case ClearReadOnly => e.(readOnly := false)
    case SetReadOnly => e.(readOnly := true)
  }

  /** Change entry `s` of the directory. */
  function Mark(fs: FS, s: nat, op: AttribOp): (r: FS)
    requires WellShaped(fs.disk) && s < NUM_FILES
    ensures WellShaped(r.disk)
  {
    fs.(disk := fs.disk.(directory := fs.disk.directory[s := ApplyAttrib(fs.disk.directory[s], op)]),
        isSaved := false)
  }

  /** `attrib` over the whole directory: the first in-use entry with the name is changed. */
  function Attrib(fs: FS, attribute: string, name: string): (r: Outcome)
    requires WellShaped(fs.disk)
    ensures WellShaped(r.fs.disk)
    ensures r.code == UsageError <==> ParseAttrib(attribute).None?
    ensures r.code == NotFound <==> ParseAttrib(attribute).Some? && Lookup(fs.disk.directory, name).None?
    ensures r.code in {Ok, UsageError, NotFound}
    ensures r.code != Ok ==> r.fs == fs
    ensures r.code == Ok ==>
      && r.fs.imageOpen == fs.imageOpen && !r.fs.isSaved
      && r.fs.disk == fs.disk.(directory := r.fs.disk.directory)
      && (forall s :: 0 <= s < NUM_FILES && s != Lookup(fs.disk.directory, name).value ==>
            r.fs.disk.directory[s] == fs.disk.directory[s])
  {
    match ParseAttrib(attribute)
    case None => Outcome(UsageError, fs)
    case Some(op) =>
      match Lookup(fs.disk.directory, name)
      case None => Outcome(NotFound, fs)
      case Some(s) => Outcome(Ok, Mark(fs, s, op))
  }

  /** `attrib` as the source writes it: only entry 0 is ever compared. */
  function AttribAsWritten(fs: FS, attribute: string, name: string): (r: Outcome)
    requires WellShaped(fs.disk)
    ensures WellShaped(r.fs.disk)
    ensures r.code == UsageError <==> ParseAttrib(attribute).None?
    ensures r.code != Ok ==> r.fs == fs
    ensures r.code == Ok <==>
      ParseAttrib(attribute).Some? && fs.disk.directory[0].inUse && fs.disk.directory[0].filename == name
    ensures r.code in {Ok, UsageError, NotFound}
    ensures r.code == Ok ==>
      && r.fs == Attrib(fs, attribute, name).fs
      && r.fs.disk.directory[0] == ApplyAttrib(fs.disk.directory[0], ParseAttrib(attribute).value)
  {
    match ParseAttrib(attribute)
    case None => Outcome(UsageError, fs)
    case Some(op) =>
      var e := fs.disk.directory[0];
      if e.inUse && e.filename == name then Outcome(Ok, Mark(fs, 0, op))
      else Outcome(NotFound, fs)
  }

  /** A valid attribute change for an in-use file: the file's entry gets exactly that
      flag, with name, inode and `in_use` kept. */
  lemma AttribSetsFlag(fs: FS, attribute: string, name: string)
    requires WellShaped(fs.disk)
    requires ParseAttrib(attribute).Some?
    requires Lookup(fs.disk.directory, name).Some?
    ensures Attrib(fs, attribute, name).code == Ok
    ensures
      var s := Lookup(fs.disk.directory, name).value;
      Attrib(fs, attribute, name).fs.disk.directory[s] == ApplyAttrib(fs.disk.directory[s], ParseAttrib(attribute).value)
  {
  }

  /** Attribute changes keep the storage invariant. */
  lemma AttribPreservesConsistent(fs: FS, attribute: string, name: string)
    requires Consistent(fs.disk)
    ensures Consistent(Attrib(fs, attribute, name).fs.disk)
  {
    var d := fs.disk;
    var r := Attrib(fs, attribute, name).fs.disk;
    assert r.inodes == d.inodes && r.freeBlocks == d.freeBlocks;
    assert forall t :: 0 <= t < NUM_FILES ==>
      r.directory[t].inUse == d.directory[t].inUse && r.directory[t].inode == d.directory[t].inode;
    assert BitmapMatchesOwnership(r) by {
      forall b | IsDataBlock(b)
        ensures Owned(r, b) <==> Owned(d, b)
      {
      }
    }
    assert Linked(r) by {
      forall i | 0 <= i < NUM_FILES && r.inodes[i].inUse
        ensures exists t :: 0 <= t < NUM_FILES && r.directory[t].inUse && r.directory[t].inode == i
      {
        var t :| 0 <= t < NUM_FILES && d.directory[t].inUse && d.directory[t].inode == i;
        assert r.directory[t].inUse && r.directory[t].inode == i;
      }
    }
  }

  /** Read-only protection: once `+r` succeeds on a file, deleting it is refused and
      leaves the image unchanged. */
  lemma ReadOnlyBlocksDelete(fs: FS, name: string)
    requires WellShaped(fs.disk) && fs.imageOpen
    requires Attrib(fs, "+r", name).code == Ok
    ensures Remove.Delete(Attrib(fs, "+r", name).fs, name).code == ReadOnly
    ensures Remove.Delete(Attrib(fs, "+r", name).fs, name).fs.disk == Attrib(fs, "+r", name).fs.disk
  {
    var s := Lookup(fs.disk.directory, name).value;
    var r := Attrib(fs, "+r", name).fs;
    assert forall t :: 0 <= t < NUM_FILES ==>
      r.disk.directory[t].inUse == fs.disk.directory[t].inUse &&
      r.disk.directory[t].filename == fs.disk.directory[t].filename;
    assert Lookup(r.disk.directory, name) == Some(s);
  }

  /** Attribute changes keep names and `in_use` flags, so unique names stay unique. */
  lemma AttribKeepsNamesUnique(fs: FS, attribute: string, name: string)
    requires WellShaped(fs.disk)
    requires UniqueNames(fs.disk.directory)
    ensures UniqueNames(Attrib(fs, attribute, name).fs.disk.directory)
  {
    var r := Attrib(fs, attribute, name).fs.disk.directory;
    assert forall t :: 0 <= t < NUM_FILES ==>
      r[t].inUse == fs.disk.directory[t].inUse && r[t].filename == fs.disk.directory[t].filename;
  }

  /** With a matching file in any slot but the first, the source's loop gives up at
      entry 0 and reports the file missing, where the full search changes it. */
  lemma AttribAsWrittenMissesLaterFiles(fs: FS, attribute: string, name: string)
    requires WellShaped(fs.disk)
    requires ParseAttrib(attribute).Some?
    requires Lookup(fs.disk.directory, name).Some? && Lookup(fs.disk.directory, name).value > 0
    ensures AttribAsWritten(fs, attribute, name).code == NotFound
    ensures Attrib(fs, attribute, name).code == Ok
  {
  }
}

=== FILE: insert.dfy ===
/**
 `file_insert`: copy a host file's bytes into the open image.

 The host file arrives as `source`: `None` when it cannot be opened,
 otherwise its whole contents. Decisions on the source's defects:
 - `file_size` and the inode bitmap are never written by the source; the
   model leaves both untouched as well.
 - The source overwrites only the first `required_blocks` entries of a reused
   inode's block list and keeps the stale numbers after them; the model
   writes sentinels there (`StoreAsWritten` keeps the literal behaviour).
 - The source never checks the file against the inode's capacity; the model
   reports `FileTooLarge` where the source would write past the block list.
 */
module Insert {
  import opened Layout
  import opened Alloc
  import opened Tables

  /** `(file_size + BLOCK_SIZE - 1) / BLOCK_SIZE`: blocks needed for `size` bytes. */
  function RequiredBlocks(size: nat): (k: nat)
    ensures k * BLOCK_SIZE >= size
    ensures k > 0 ==> (k - 1) * BLOCK_SIZE < size
  {
    (size + BLOCK_SIZE - 1) / BLOCK_SIZE
  }

  /** What insert decided before touching any state. */
  datatype Plan = Plan(slot: nat, inode: nat, claimed: seq<int>, content: seq<byte>)

  /** The claimed blocks are distinct free data blocks, exactly enough for the content. */
  predicate ClaimsFreeBlocks(d: Disk, p: Plan)
    requires WellShaped(d)
  {
    && p.slot < NUM_FILES
    && p.inode < NUM_FILES
    && |p.claimed| == RequiredBlocks(|p.content|)
    && Distinct(p.claimed)
    && (forall m :: 0 <= m < |p.claimed| ==> IsDataBlock(p.claimed[m]) && d.freeBlocks[p.claimed[m]])
  }

  /** A plan the inode can record: at most one block number per block-list entry. */
  predicate ValidPlan(d: Disk, p: Plan)
    requires WellShaped(d)
  {
    ClaimsFreeBlocks(d, p) && |p.claimed| <= BLOCKS_PER_FILE
  }

  /** The name fits and both tables have a free slot: the checks `file_insert` makes
      before it opens the host file. */
  predicate PassesTableChecks(d: Disk, name: string) {
    |name| <= MAX_NAME_LENGTH && FreeDirectorySlot(d.directory).Some? && FreeInodeSlot(d.inodes).Some?
  }

  /** The checks of `file_insert` as the source makes them, in its order, then the
      first-fit choice of blocks. Nothing compares the file with an inode's capacity. */
  function PlanInsertAsWritten(d: Disk, name: string, source: Option<seq<byte>>): (r: Result<Plan>)
    requires WellShaped(d)
    ensures r.Success? ==> ClaimsFreeBlocks(d, r.value)
    ensures r.Success? ==>
      |r.value.claimed| <= FreeDataCount(d.freeBlocks) && r.value.claimed == FirstFit(d.freeBlocks, |r.value.claimed|)
    ensures r == Failure(NameTooLong) <==> |name| > MAX_NAME_LENGTH
    ensures r == Failure(NoDirectorySlot) <==>
      |name| <= MAX_NAME_LENGTH && forall s :: 0 <= s < NUM_FILES ==> d.directory[s].inUse
    ensures r == Failure(NoInodeSlot) <==>
      && |name| <= MAX_NAME_LENGTH
      && (exists s :: 0 <= s < NUM_FILES && !d.directory[s].inUse)
      && forall i :: 0 <= i < NUM_FILES ==> d.inodes[i].inUse
    ensures r == Failure(SourceNotFound) <==> PassesTableChecks(d, name) && source.None?
    ensures r == Failure(InsufficientSpace) <==>
      PassesTableChecks(d, name) && source.Some? && FreeDataCount(d.freeBlocks) < RequiredBlocks(|source.value|)
    ensures r.Success? <==>
      PassesTableChecks(d, name) && source.Some? && RequiredBlocks(|source.value|) <= FreeDataCount(d.freeBlocks)
    ensures r.Success? || r.code in {NameTooLong, NoDirectorySlot, NoInodeSlot, SourceNotFound, InsufficientSpace}
    ensures r.Success? ==>
      && source == Some(r.value.content)
      && FreeDirectorySlot(d.directory) == Some(r.value.slot)
      && FreeInodeSlot(d.inodes) == Some(r.value.inode)
  {
    if |name| > MAX_NAME_LENGTH then Failure(NameTooLong)
    else match FreeDirectorySlot(d.directory)
      case None => Failure(NoDirectorySlot)
      case Some(slot) =>
        match FreeInodeSlot(d.inodes)
        case None => Failure(NoInodeSlot)
        case Some(inode) =>
          match source
          case None => Failure(SourceNotFound)
          case Some(content) =>
            var k := RequiredBlocks(|content|);
            if FreeDataCount(d.freeBlocks) < k then Failure(InsufficientSpace)
            else
              FirstFitIsLowest(d.freeBlocks, k);
              Success(Plan(slot, inode, FirstFit(d.freeBlocks, k), content))
  }

  /** The corrected plan: a file needing more blocks than an inode lists is refused. */
  function PlanInsert(d: Disk, name: string, source: Option<seq<byte>>): (r: Result<Plan>)
    requires WellShaped(d)
    ensures r.Success? ==> ValidPlan(d, r.value)
    ensures r == Failure(FileTooLarge) <==>
      && PlanInsertAsWritten(d, name, source).Success?
      && |PlanInsertAsWritten(d, name, source).value.claimed| > BLOCKS_PER_FILE
    ensures r != Failure(FileTooLarge) ==> r == PlanInsertAsWritten(d, name, source)
  {
    match PlanInsertAsWritten(d, name, source)
    case Failure(code) => Failure(code)
    case Success(p) => if |p.claimed| > BLOCKS_PER_FILE then Failure(FileTooLarge) else Success(p)
  }

  /** The `fread` into the `k`-th claimed block: bytes `[k * BLOCK_SIZE, (k + 1) * BLOCK_SIZE)`
      of the content; a short final read leaves the rest of the block as it was. */
  function FillBlock(prev: Block, content: seq<byte>, k: nat): (b: Block)
    requires |prev| == BLOCK_SIZE
    requires k * BLOCK_SIZE < |content|
    ensures |b| == BLOCK_SIZE
    ensures forall t :: 0 <= t < BLOCK_SIZE && k * BLOCK_SIZE + t < |content| ==> b[t] == content[k * BLOCK_SIZE + t]
    ensures forall t :: 0 <= t < BLOCK_SIZE && k * BLOCK_SIZE + t >= |content| ==> b[t] == prev[t]
  {
    var lo := k * BLOCK_SIZE;
    var hi := Min(lo + BLOCK_SIZE, |content|);
    content[lo..hi] + prev[hi - lo..]
  }

  /** The block store after the content is copied, block by block, into `claimed`. */
  function WriteBlocks(data: seq<Block>, claimed: seq<int>, content: seq<byte>): (r: seq<Block>)
    requires forall b :: 0 <= b < |data| ==> |data[b]| == BLOCK_SIZE
    requires |claimed| == RequiredBlocks(|content|)
    ensures |r| == |data|
    ensures forall b :: 0 <= b < |data| ==> |r[b]| == BLOCK_SIZE
    ensures forall b :: 0 <= b < |data| && b !in claimed ==> r[b] == data[b]
  {
    seq(|data|, b requires 0 <= b < |data| =>
      match FirstIndex(claimed, (c: int) => c == b)
      case Some(k) => FillBlock(data[b], content, k)
      case None => data[b])
  }

  /** The new inode's block list: the claimed blocks, then sentinels. */
  function FreshBlockList(claimed: seq<int>): (l: seq<int>)
    requires |claimed| <= BLOCKS_PER_FILE
    ensures |l| == BLOCKS_PER_FILE
  {
    claimed + seq(BLOCKS_PER_FILE - |claimed|, _ => SENTINEL)
  }

  /** The mutations of a successful insert, with the corrected block list. */
  function Store(d: Disk, name: string, p: Plan): (r: Disk)
    requires WellShaped(d)
    requires ValidPlan(d, p)
    ensures WellShaped(r)
  {
    d.(directory := d.directory[p.slot := DirEntry(name, true, p.inode, false, false)],
       inodes := d.inodes[p.inode := d.inodes[p.inode].(inUse := true, blocks := FreshBlockList(p.claimed))],
       freeBlocks := MarkUsed(d.freeBlocks, p.claimed),
       data := WriteBlocks(d.data, p.claimed, p.content))
  }

  /** `file_insert`, including the command loop's open-image check that guards it. */
  function Insert(fs: FS, name: string, source: Option<seq<byte>>): (r: Outcome)
    requires WellShaped(fs.disk)
    ensures WellShaped(r.fs.disk)
    ensures !fs.imageOpen ==> r == Outcome(NotOpen, fs)
    ensures fs.imageOpen ==> r.fs.imageOpen && !r.fs.isSaved
    ensures r.code != Ok ==> r.fs.disk == fs.disk
    ensures r.code == NameTooLong <==> fs.imageOpen && |name| > MAX_NAME_LENGTH
    ensures r.code == NoDirectorySlot <==>
      fs.imageOpen && |name| <= MAX_NAME_LENGTH && forall s :: 0 <= s < NUM_FILES ==> fs.disk.directory[s].inUse
    ensures r.code == NoInodeSlot <==>
      && fs.imageOpen && |name| <= MAX_NAME_LENGTH
      && (exists s :: 0 <= s < NUM_FILES && !fs.disk.directory[s].inUse)
      && forall i :: 0 <= i < NUM_FILES ==> fs.disk.inodes[i].inUse
    ensures r.code == SourceNotFound <==> fs.imageOpen && PassesTableChecks(fs.disk, name) && source.None?
    ensures r.code == InsufficientSpace <==>
      && fs.imageOpen && PassesTableChecks(fs.disk, name) && source.Some?
      && FreeDataCount(fs.disk.freeBlocks) < RequiredBlocks(|source.value|)
    ensures r.code == FileTooLarge <==>
      && fs.imageOpen && PassesTableChecks(fs.disk, name) && source.Some?
      && BLOCKS_PER_FILE < RequiredBlocks(|source.value|) <= FreeDataCount(fs.disk.freeBlocks)
    ensures r.code == Ok <==>
      && fs.imageOpen && PassesTableChecks(fs.disk, name) && source.Some?
      && RequiredBlocks(|source.value|) <= FreeDataCount(fs.disk.freeBlocks)
      && RequiredBlocks(|source.value|) <= BLOCKS_PER_FILE
    ensures r.code in {NotOpen, NameTooLong, NoDirectorySlot, NoInodeSlot, SourceNotFound, InsufficientSpace, FileTooLarge, Ok}
  {
    if !fs.imageOpen then Outcome(NotOpen, fs)
    else
      var fs0 := fs.(isSaved := false);
      match PlanInsert(fs.disk, name, source)
      case Failure(code) => Outcome(code, fs0)
      case Success(p) => Outcome(Ok, fs0.(disk := Store(fs.disk, name, p)))
  }

  /** The mutations of a successful insert as the source makes them: the claimed
      block numbers overwrite the front of the inode's block list and whatever
      the list held after them stays. */
  function StoreAsWritten(d: Disk, name: string, p: Plan): (r: Disk)
    requires WellShaped(d)
    requires ValidPlan(d, p)
    ensures WellShaped(r)
    ensures r.inodes[p.inode].blocks[..|p.claimed|] == p.claimed
    ensures r.inodes[p.inode].blocks[|p.claimed|..] == d.inodes[p.inode].blocks[|p.claimed|..]
    ensures r.inodes[p.inode].inUse
    ensures r.inodes[p.inode].attribute == d.inodes[p.inode].attribute
    ensures r.inodes[p.inode].fileSize == d.inodes[p.inode].fileSize
    ensures forall i :: 0 <= i < NUM_FILES && i != p.inode ==> r.inodes[i] == d.inodes[i]
    ensures r.directory[p.slot] == DirEntry(name, true, p.inode, false, false)
    ensures forall s :: 0 <= s < NUM_FILES && s != p.slot ==> r.directory[s] == d.directory[s]
    ensures forall b :: 0 <= b < NUM_BLOCKS ==> (r.freeBlocks[b] <==> d.freeBlocks[b] && b !in p.claimed)
    ensures r.data == Store(d, name, p).data && r.freeInodes == d.freeInodes
  {
    var prior := d.inodes[p.inode].blocks;
    var blocks := p.claimed + prior[|p.claimed|..];
    assert blocks[..|p.claimed|] == p.claimed;
    d.(directory := d.directory[p.slot := DirEntry(name, true, p.inode, false, false)],
       inodes := d.inodes[p.inode := d.inodes[p.inode].(inUse := true, blocks := blocks)],
       freeBlocks := MarkUsed(d.freeBlocks, p.claimed),
       data := WriteBlocks(d.data, p.claimed, p.content))
  }

  /** When the reused inode's list still names a block right after the new file's
      blocks, and that block is free, the result claims the block for the file
      while the bitmap still offers it to the next insert. */
  lemma StaleBlockBreaksBitmap(d: Disk, name: string, p: Plan)
    requires WellShaped(d)
    requires ValidPlan(d, p)
    requires |p.claimed| < BLOCKS_PER_FILE
    requires IsDataBlock(d.inodes[p.inode].blocks[|p.claimed|])
    requires d.freeBlocks[d.inodes[p.inode].blocks[|p.claimed|]]
    requires d.inodes[p.inode].blocks[|p.claimed|] !in p.claimed
    ensures !BitmapMatchesOwnership(StoreAsWritten(d, name, p))
  {
    var r := StoreAsWritten(d, name, p);
    var n := |p.claimed|;
    var stale := d.inodes[p.inode].blocks[n];
    var ino := r.inodes[p.inode];
    assert ino.blocks[n] == stale;
    forall k | 0 <= k <= n
      ensures ino.blocks[k] != SENTINEL
    {
      if k < n {
        assert ino.blocks[k] == p.claimed[k];
      }
    }
    var h := Held(ino);
    assert |h| > n;
    assert h[n] == stale;
    assert Owned(r, stale);
    assert r.freeBlocks[stale];
  }

  /** The corrected list: an inode whose list is `FreshBlockList(claimed)` holds exactly `claimed`. */
  lemma HeldFreshBlockList(ino: Inode, claimed: seq<int>)
    requires |claimed| <= BLOCKS_PER_FILE
    requires forall m :: 0 <= m < |claimed| ==> IsDataBlock(claimed[m])
    requires ino.blocks == FreshBlockList(claimed)
    ensures Held(ino) == claimed
  {
    var h := Held(ino);
    forall k | 0 <= k < |claimed|
      ensures ino.blocks[k] == claimed[k] && ino.blocks[k] != SENTINEL
    {
    }
    if |claimed| < BLOCKS_PER_FILE {
      assert ino.blocks[|claimed|] == SENTINEL;
    }
    assert |h| == |claimed|;
  }

  /** What the claiming loop knows after scanning the blocks below `i`. */
  ghost predicate ClaimInvariant(free: seq<bool>, k: nat, i: nat, claimed: seq<int>, after: seq<bool>)
    requires |free| == NUM_BLOCKS
  {
    && FIRST_DATA_BLOCK <= i <= NUM_BLOCKS
    && |claimed| <= k
    && claimed + FreeFrom(free, i) == FreeDataList(free)
    && (forall m :: 0 <= m < |claimed| ==> claimed[m] < i)
    && after == MarkUsed(free, claimed)
  }

  /** One iteration of the claiming loop keeps its invariant. */
  lemma ClaimIteration(free: seq<bool>, k: nat, i: nat, claimed: seq<int>, after: seq<bool>)
    requires |free| == NUM_BLOCKS
    requires ClaimInvariant(free, k, i, claimed, after)
    requires i < NUM_BLOCKS && |claimed| < k
    ensures after[i] == free[i]
    ensures free[i] ==> ClaimInvariant(free, k, i + 1, claimed + [i], after[i := false])
    ensures !free[i] ==> ClaimInvariant(free, k, i + 1, claimed, after)
  {
    assert i !in claimed;
    ClaimStep(free, i, claimed, FreeDataList(free));
    if free[i] {
      MarkUsedStep(free, claimed, i);
    }
  }

  /** The claiming loop of `file_insert`: scan the data region upwards, taking each
      free block until `k` are taken. It takes the first fit and clears exactly
      the taken blocks' flags. */
  method AllocateFirstFit(free: seq<bool>, k: nat) returns (claimed: seq<int>, after: seq<bool>)
    requires |free| == NUM_BLOCKS
    requires k <= FreeDataCount(free)
    ensures claimed == FirstFit(free, k)
    ensures after == MarkUsed(free, claimed)
  {
    FreeDataListCount(free);
    claimed := [];
    after := free;
    var i := FIRST_DATA_BLOCK;
    while i < NUM_BLOCKS && |claimed| < k
      invariant ClaimInvariant(free, k, i, claimed, after)
      decreases NUM_BLOCKS - i
    {
      ClaimIteration(free, k, i, claimed, after);
      if after[i] {
        claimed := claimed + [i];
        after := after[i := false];
      }
      i := i + 1;
    }
    if i == NUM_BLOCKS {
      assert FreeFrom(free, i) == [];
    }
    PrefixOfConcat(claimed, FreeFrom(free, i), FreeDataList(free));
  }

  /** A successful insert puts the name in the first free directory slot, points it at
      the first free inode, gives that inode the lowest free data blocks, clears their
      free flags, and leaves every other entry, inode, flag and data block as it was. */
  lemma InsertRecordsFile(fs: FS, name: string, source: Option<seq<byte>>)
    requires WellShaped(fs.disk)
    requires Insert(fs, name, source).code == Ok
    ensures source.Some? && FreeDirectorySlot(fs.disk.directory).Some? && FreeInodeSlot(fs.disk.inodes).Some?
    ensures RequiredBlocks(|source.value|) <= BLOCKS_PER_FILE
    ensures
      var d, r := fs.disk, Insert(fs, name, source).fs.disk;
      var slot, v := FreeDirectorySlot(d.directory).value, FreeInodeSlot(d.inodes).value;
      var claimed := FirstFit(d.freeBlocks, RequiredBlocks(|source.value|));
      && r.directory[slot] == DirEntry(name, true, v, false, false)
      && r.inodes[v].inUse
      && Held(r.inodes[v]) == claimed
      && r.inodes[v].attribute == d.inodes[v].attribute
      && r.inodes[v].fileSize == d.inodes[v].fileSize
      && (forall s :: 0 <= s < NUM_FILES && s != slot ==> r.directory[s] == d.directory[s])
      && (forall i :: 0 <= i < NUM_FILES && i != v ==> r.inodes[i] == d.inodes[i])
      && r.freeInodes == d.freeInodes
      && (forall b :: 0 <= b < NUM_BLOCKS ==> (r.freeBlocks[b] <==> d.freeBlocks[b] && b !in claimed))
      && (forall b :: 0 <= b < NUM_BLOCKS && b !in claimed ==> r.data[b] == d.data[b])
  {
    var p := PlanInsert(fs.disk, name, source).value;
    HeldFreshBlockList(Store(fs.disk, name, p).inodes[p.inode], p.claimed);
  }

  /** The source's insert never looks for an in-use file with the same name: when the
      name is taken and every other check passes, the insert succeeds and two in-use
      entries carry the name, the old one and the new one. */
  lemma InsertDuplicatesName(fs: FS, name: string, source: Option<seq<byte>>)
    requires WellShaped(fs.disk)
    requires Lookup(fs.disk.directory, name).Some?
    requires fs.imageOpen && PassesTableChecks(fs.disk, name) && source.Some?
    requires RequiredBlocks(|source.value|) <= FreeDataCount(fs.disk.freeBlocks)
    requires RequiredBlocks(|source.value|) <= BLOCKS_PER_FILE
    ensures Insert(fs, name, source).code == Ok
    ensures
      var r := Insert(fs, name, source).fs.disk.directory;
      var s, slot := Lookup(fs.disk.directory, name).value, FreeDirectorySlot(fs.disk.directory).value;
      && s != slot
      && r[s].inUse && r[s].filename == name
      && r[slot].inUse && r[slot].filename == name
    ensures !UniqueNames(Insert(fs, name, source).fs.disk.directory)
  {
    InsertRecordsFile(fs, name, source);
    var r := Insert(fs, name, source).fs.disk.directory;
    var s, slot := Lookup(fs.disk.directory, name).value, FreeDirectorySlot(fs.disk.directory).value;
    assert r[s] == fs.disk.directory[s];
    if s < slot {
      assert !(r[s].filename != r[slot].filename);
    } else {
      assert !(r[slot].filename != r[s].filename);
    }
  }

  /** The insert the names' uniqueness calls for: a name an in-use file already carries
      is refused with NameTaken, which clears `is_saved` and changes no table; any other
      name goes through the insert above. */
  function InsertUnique(fs: FS, name: string, source: Option<seq<byte>>): (r: Outcome)
    requires WellShaped(fs.disk)
    ensures WellShaped(r.fs.disk)
    ensures r.code == NameTaken <==> fs.imageOpen && Lookup(fs.disk.directory, name).Some?
    ensures r.code == NameTaken ==> r.fs == fs.(isSaved := false)
    ensures r.code != NameTaken ==> r == Insert(fs, name, source)
  {
    if fs.imageOpen && Lookup(fs.disk.directory, name).Some? then Outcome(NameTaken, fs.(isSaved := false))
    else Insert(fs, name, source)
  }

  /** The checked insert keeps the names of in-use files unique. */
  lemma InsertUniqueKeepsNamesUnique(fs: FS, name: string, source: Option<seq<byte>>)
    requires WellShaped(fs.disk)
    requires UniqueNames(fs.disk.directory)
    ensures UniqueNames(InsertUnique(fs, name, source).fs.disk.directory)
  {
    var d := fs.disk.directory;
    var o := InsertUnique(fs, name, source);
    if o.code == Ok {
      InsertRecordsFile(fs, name, source);
      var r := o.fs.disk.directory;
      var slot := FreeDirectorySlot(d).value;
      assert Lookup(d, name).None?;
      forall s, t | 0 <= s < t < |r| && r[s].inUse && r[t].inUse
        ensures r[s].filename != r[t].filename
      {
        if s != slot && t != slot {
          assert r[s] == d[s] && r[t] == d[t];
        } else if s == slot {
          assert r[t] == d[t];
        } else {
          assert r[s] == d[s];
        }
      }
    }
  }

  /** Byte `t` of the content belongs to block `t / BLOCK_SIZE` of the file, at offset `t % BLOCK_SIZE`. */
  lemma ByteOfBlock(t: nat, size: nat)
    requires t < size
    ensures t / BLOCK_SIZE < RequiredBlocks(size)
    ensures (t / BLOCK_SIZE) * BLOCK_SIZE + t % BLOCK_SIZE == t
  {
  }

  /** Every byte of the content is in its claimed block after `Store`. */
  lemma StoreWritesContent(d: Disk, name: string, p: Plan)
    requires WellShaped(d)
    requires ValidPlan(d, p)
    ensures forall t :: 0 <= t < |p.content| ==>
      t / BLOCK_SIZE < |p.claimed| && Store(d, name, p).data[p.claimed[t / BLOCK_SIZE]][t % BLOCK_SIZE] == p.content[t]
  {
    var r := Store(d, name, p);
    forall t | 0 <= t < |p.content|
      ensures t / BLOCK_SIZE < |p.claimed| && r.data[p.claimed[t / BLOCK_SIZE]][t % BLOCK_SIZE] == p.content[t]
    {
      var k := t / BLOCK_SIZE;
      ByteOfBlock(t, |p.content|);
      WrittenBlock(d.data, p.claimed, p.content, k);
      var f := FillBlock(d.data[p.claimed[k]], p.content, k);
      assert f[t % BLOCK_SIZE] == p.content[k * BLOCK_SIZE + t % BLOCK_SIZE];
    }
  }

  /** Byte `t` of the inserted content lands in the file's `t / BLOCK_SIZE`-th block at
      offset `t % BLOCK_SIZE`. */
  lemma InsertStoresContent(fs: FS, name: string, source: Option<seq<byte>>)
    requires WellShaped(fs.disk)
    requires Insert(fs, name, source).code == Ok
    ensures source.Some? && FreeInodeSlot(fs.disk.inodes).Some?
    ensures
      var r := Insert(fs, name, source).fs.disk;
      var held := Held(r.inodes[FreeInodeSlot(fs.disk.inodes).value]);
      && |held| == RequiredBlocks(|source.value|)
      && forall t :: 0 <= t < |source.value| ==>
           t / BLOCK_SIZE < |held| && r.data[held[t / BLOCK_SIZE]][t % BLOCK_SIZE] == source.value[t]
  {
    var p := PlanInsert(fs.disk, name, source).value;
    var r := Store(fs.disk, name, p);
    HeldFreshBlockList(r.inodes[p.inode], p.claimed);
    StoreWritesContent(fs.disk, name, p);
  }

  /** The claimed block at position `k` receives the `k`-th slice of the content. */
  lemma WrittenBlock(data: seq<Block>, claimed: seq<int>, content: seq<byte>, k: nat)
    requires forall b :: 0 <= b < |data| ==> |data[b]| == BLOCK_SIZE
    requires |claimed| == RequiredBlocks(|content|)
    requires Distinct(claimed)
    requires k < |claimed| && 0 <= claimed[k] < |data|
    ensures k * BLOCK_SIZE < |content|
    ensures WriteBlocks(data, claimed, content)[claimed[k]] == FillBlock(data[claimed[k]], content, k)
  {
    var b := claimed[k];
    var f := FirstIndex(claimed, (c: int) => c == b);
    assert f == Some(k);
  }

  /** Insert lowers the free-block count by the blocks the content needs. */
  lemma InsertSpaceAccounting(fs: FS, name: string, source: Option<seq<byte>>)
    requires WellShaped(fs.disk)
    requires Insert(fs, name, source).code == Ok
    ensures source.Some?
    ensures FreeDataCount(Insert(fs, name, source).fs.disk.freeBlocks) ==
      FreeDataCount(fs.disk.freeBlocks) - RequiredBlocks(|source.value|)
  {
    var p := PlanInsert(fs.disk, name, source).value;
    MarkUsedCount(fs.disk.freeBlocks, p.claimed);
  }

  /** After `Store`, a data block is owned exactly when it was owned before or was claimed. */
  lemma StoreOwnership(d: Disk, name: string, p: Plan)
    requires Consistent(d)
    requires ValidPlan(d, p)
    requires !d.inodes[p.inode].inUse
    ensures Held(Store(d, name, p).inodes[p.inode]) == p.claimed
    ensures forall b :: IsDataBlock(b) ==> (Owned(Store(d, name, p), b) <==> Owned(d, b) || b in p.claimed)
    ensures forall b :: b in p.claimed ==> !Owned(d, b)
  {
    var r := Store(d, name, p);
    HeldFreshBlockList(r.inodes[p.inode], p.claimed);
    forall b | IsDataBlock(b)
      ensures Owned(r, b) <==> Owned(d, b) || b in p.claimed
    {
      if Owned(r, b) {
        var i :| 0 <= i < NUM_FILES && r.inodes[i].inUse && b in Held(r.inodes[i]);
        if i != p.inode {
          assert Owned(d, b);
        }
      }
      if Owned(d, b) {
        var i :| 0 <= i < NUM_FILES && d.inodes[i].inUse && b in Held(d.inodes[i]);
        assert r.inodes[i] == d.inodes[i];
      }
      if b in p.claimed {
        assert r.inodes[p.inode].inUse && b in Held(r.inodes[p.inode]);
      }
    }
    forall b | b in p.claimed
      ensures !Owned(d, b)
    {
      var m :| 0 <= m < |p.claimed| && p.claimed[m] == b;
      assert d.freeBlocks[b];
    }
  }

  /** `Store` into a free inode keeps the tables linked one to one. */
  lemma StoreKeepsLinked(d: Disk, name: string, p: Plan)
    requires Consistent(d)
    requires ValidPlan(d, p)
    requires !d.directory[p.slot].inUse && !d.inodes[p.inode].inUse
    ensures Linked(Store(d, name, p))
  {
    var r := Store(d, name, p);
    forall s | 0 <= s < NUM_FILES && d.directory[s].inUse
      ensures d.directory[s].inode != p.inode
    {
    }
    forall i | 0 <= i < NUM_FILES && r.inodes[i].inUse
      ensures exists s :: 0 <= s < NUM_FILES && r.directory[s].inUse && r.directory[s].inode == i
    {
      if i == p.inode {
        assert r.directory[p.slot].inode == i;
      } else {
        var s :| 0 <= s < NUM_FILES && d.directory[s].inUse && d.directory[s].inode == i;
        assert r.directory[s] == d.directory[s];
      }
    }
  }

  /** `Store` into free slots keeps the storage invariant. */
  lemma StorePreservesConsistent(d: Disk, name: string, p: Plan)
    requires Consistent(d)
    requires ValidPlan(d, p)
    requires !d.directory[p.slot].inUse && !d.inodes[p.inode].inUse
    ensures Consistent(Store(d, name, p))
  {
    var r := Store(d, name, p);
    StoreOwnership(d, name, p);
    StoreKeepsLinked(d, name, p);
    assert BitmapMatchesOwnership(r);
    assert ExclusiveOwnership(r) by {
      forall i, j, b | 0 <= i < NUM_FILES && 0 <= j < NUM_FILES && i != j &&
          r.inodes[i].inUse && r.inodes[j].inUse && b in Held(r.inodes[i])
        ensures b !in Held(r.inodes[j])
      {
        if i == p.inode {
          assert IsDataBlock(b) && !Owned(d, b);
        } else if j == p.inode {
          assert Owned(d, b);
        }
      }
    }
    assert forall i :: 0 <= i < NUM_FILES ==> HoldsDataBlocks(r.inodes[i]);
  }

  /** Insert keeps the storage invariant. */
  lemma InsertPreservesConsistent(fs: FS, name: string, source: Option<seq<byte>>)
    requires Consistent(fs.disk)
    ensures Consistent(Insert(fs, name, source).fs.disk)
  {
    if Insert(fs, name, source).code == Ok {
      var p := PlanInsert(fs.disk, name, source).value;
      StorePreservesConsistent(fs.disk, name, p);
    }
  }

  /** With the whole data region free and a free slot in each table, a file one byte
      longer than an inode can list passes every check of the source, which then
      claims more blocks than the block list has entries. */
  lemma OversizedPlanOverrunsBlockList(d: Disk, name: string, content: seq<byte>)
    requires WellShaped(d)
    requires |name| <= MAX_NAME_LENGTH
    requires !d.directory[0].inUse && !d.inodes[0].inUse
    requires FreeDataCount(d.freeBlocks) == NUM_BLOCKS - FIRST_DATA_BLOCK
    requires |content| == BLOCKS_PER_FILE * BLOCK_SIZE + 1
    ensures PlanInsertAsWritten(d, name, Some(content)).Success?
    ensures |PlanInsertAsWritten(d, name, Some(content)).value.claimed| == BLOCKS_PER_FILE + 1
  {
    assert RequiredBlocks(|content|) == BLOCKS_PER_FILE + 1;
  }

  /** The corrected insert refuses that file and changes nothing on the image. */
  lemma OversizedInsertRefused(fs: FS, name: string, content: seq<byte>)
    requires WellShaped(fs.disk) && fs.imageOpen
    requires |name| <= MAX_NAME_LENGTH
    requires !fs.disk.directory[0].inUse && !fs.disk.inodes[0].inUse
    requires FreeDataCount(fs.disk.freeBlocks) == NUM_BLOCKS - FIRST_DATA_BLOCK
    requires |content| == BLOCKS_PER_FILE * BLOCK_SIZE + 1
    ensures Insert(fs, name, Some(content)).code == FileTooLarge
    ensures Insert(fs, name, Some(content)).fs.disk == fs.disk
  {
    OversizedPlanOverrunsBlockList(fs.disk, name, content);
  }
}

=== FILE: layout.dfy ===
/**
 The state of the Mav file system: the block store, the directory and inode
 tables, the two free-flag bitmaps and the two lifecycle flags, held in one
 immutable record instead of the C program's globals.

 The C program carves the tables out of the block store itself; here they are
 separate sequences, so a write to a data block never disturbs a table.
 */
module Layout {

  /** Capacities, with the values of the C program's #defines. */
  const BLOCK_SIZE: nat := 1024
  const NUM_BLOCKS: nat := 65536
  const BLOCKS_PER_FILE: nat := 1024
  const NUM_FILES: nat := 256
  const FIRST_DATA_BLOCK: nat := 790

  /** Longest file name insert accepts; the directory stores 64 bytes with the terminator. */
  const MAX_NAME_LENGTH: nat := 63

  /** The "no block" value of an inode's block list. */
  const SENTINEL: int := -1

  type byte = bv8
  type Block = seq<byte>

  datatype Option<T> = None | Some(value: T)

  /** One slot of the directory table. `inode` is -1 in a slot that was never used. */
  datatype DirEntry = DirEntry(
    filename: string,
    inUse: bool,
    inode: int,
    hidden: bool,
    readOnly: bool)

  /** One slot of the inode table: block numbers in file order, then sentinels. */
  datatype Inode = Inode(
    blocks: seq<int>,
    inUse: bool,
    attribute: byte,
    fileSize: nat)

  /** Everything the image file holds. */
  datatype Disk = Disk(
    directory: seq<DirEntry>,
    inodes: seq<Inode>,
    freeBlocks: seq<bool>,
    freeInodes: seq<bool>,
    data: seq<Block>)

  /** The session: the loaded disk plus `image_open` and `is_saved`. */
  datatype FS = FS(disk: Disk, imageOpen: bool, isSaved: bool)

  /** Status of a command, one value per distinct message the program prints. */
  datatype Code =
    | Ok
    | NotOpen
    | NotFound
    | ReadOnly
    | NotDeleted
    | NameTooLong
    | NoDirectorySlot
    | NoInodeSlot
    | SourceNotFound
    | FileTooLarge
    | InsufficientSpace
    | InvalidStart
    | InvalidCount
    | Unallocated
    | InvalidFlag
    | UsageError
    | Conflict
    | NameTaken

  /** A command's status together with the state it leaves behind. */
  datatype Outcome = Outcome(code: Code, fs: FS)

  /** A command that produces a value, or the status that prevented it. */
  datatype Result<T> = Success(value: T) | Failure(code: Code)

  predicate IsDataBlock(b: int) {
    FIRST_DATA_BLOCK <= b < NUM_BLOCKS
  }

  predicate Distinct(s: seq<int>) {
    forall a, b :: 0 <= a < b < |s| ==> s[a] != s[b]
  }

  /** Fixed table sizes, and directory slots that refer to real inodes. */
  predicate WellShaped(d: Disk) {
    && |d.directory| == NUM_FILES
    && |d.inodes| == NUM_FILES
    && |d.freeBlocks| == NUM_BLOCKS
    && |d.freeInodes| == NUM_FILES
    && |d.data| == NUM_BLOCKS
    && (forall i :: 0 <= i < |d.inodes| ==> |d.inodes[i].blocks| == BLOCKS_PER_FILE)
    && (forall b :: 0 <= b < |d.data| ==> |d.data[b]| == BLOCK_SIZE)
    && (forall s :: 0 <= s < |d.directory| ==> SENTINEL <= d.directory[s].inode < NUM_FILES)
    && (forall s :: 0 <= s < |d.directory| && (d.directory[s].inUse || d.directory[s].filename != []) ==>
          0 <= d.directory[s].inode)
  }

  function Min(a: int, b: int): int {
    if a < b then a else b
  }
}

=== FILE: lifecycle.dfy ===
/**
 The image lifecycle: `init`, `createfs`, `openfs`, `savefs` and `closefs`, and the
 two flags `image_open` and `is_saved` that every command consults or changes.

 Host file I/O is outside the model: `openfs` receives the image it loaded, and
 `savefs` returns the image it would write.
 */
module Lifecycle {
  import opened Layout
  import opened Alloc
  import opened Tables
  import Insert
  import Remove
  import Attributes
  import Reading
  import Listing
  import Space

  /** The block store after `memset(data, 0, ...)`. */
  function ZeroBlocks(): (data: seq<Block>)
    ensures |data| == NUM_BLOCKS
    ensures forall b :: 0 <= b < NUM_BLOCKS ==> |data[b]| == BLOCK_SIZE
  {
    seq(NUM_BLOCKS, _ => seq(BLOCK_SIZE, _ => 0 as byte))
  }

  /** An image with every directory entry and inode reset, every block zero and every
      flag of both bitmaps set. */
  predicate Blank(d: Disk)
    requires WellShaped(d)
  {
    && (forall b, k :: 0 <= b < NUM_BLOCKS && 0 <= k < BLOCK_SIZE ==> d.data[b][k] == 0)
    && (forall s :: 0 <= s < NUM_FILES ==> d.directory[s] == EMPTY_ENTRY)
    && (forall i :: 0 <= i < NUM_FILES ==> EmptyInode(d.inodes[i]) && Held(d.inodes[i]) == [])
    && (forall i :: 0 <= i < NUM_FILES ==> d.freeInodes[i])
    && (forall b :: 0 <= b < NUM_BLOCKS ==> d.freeBlocks[b])
    && FreeDataCount(d.freeBlocks) == NUM_BLOCKS - FIRST_DATA_BLOCK
  }

  function BlankDisk(): (d: Disk)
    ensures Consistent(d) && Blank(d)
  {
    var d := ResetDisk(ZeroBlocks());
    assert forall i :: 0 <= i < NUM_FILES ==> Held(d.inodes[i]) == [];
    d
  }

  /** `init`: the session at program start, with no image open. */
  function Init(): (fs: FS)
    ensures !fs.imageOpen && !fs.isSaved
    ensures Consistent(fs.disk) && Blank(fs.disk)
  {
    FS(BlankDisk(), false, false)
  }

  /** `createfs`: a blank image, open and unsaved, whatever was there before. */
  function CreateFs(fs: FS): (r: FS)
    ensures r.imageOpen && !r.isSaved
    ensures Consistent(r.disk) && Blank(r.disk)
  {
    FS(BlankDisk(), true, false)
  }

  /** `openfs`: the loaded image replaces the tables and blocks; open and unsaved.
      Nothing checks that another image was open. */
  function OpenFs(fs: FS, image: Disk): (r: FS)
    requires WellShaped(image)
    ensures r.imageOpen && !r.isSaved && r.disk == image
  {
    FS(image, true, false)
  }

  /** The result of `savefs`: its status, the session after it, and the image it writes. */
  datatype Saved = Saved(code: Code, fs: FS, written: Option<Disk>)

  /** `savefs`: `is_saved` is set whether or not an image is open; only an open
      image is written. */
  function SaveFs(fs: FS): (r: Saved)
    ensures r.fs.isSaved && r.fs.imageOpen == fs.imageOpen && r.fs.disk == fs.disk
    ensures r.code == Ok <==> fs.imageOpen
    ensures r.code != Ok ==> r.code == NotOpen && r.written.None?
    ensures r.code == Ok ==> r.written == Some(fs.disk)
  {
    if !fs.imageOpen then Saved(NotOpen, fs.(isSaved := true), None)
    else Saved(Ok, fs.(isSaved := true), Some(fs.disk))
  }

  /** `closefs`: `is_saved` is set whether or not an image is open; an open image is closed. */
  function CloseFs(fs: FS): (r: Outcome)
    ensures r.fs.isSaved && !r.fs.imageOpen && r.fs.disk == fs.disk
    ensures r.code == Ok <==> fs.imageOpen
    ensures r.code != Ok ==> r.code == NotOpen
  {
    if !fs.imageOpen then Outcome(NotOpen, fs.(isSaved := true))
    else Outcome(Ok, fs.(isSaved := true, imageOpen := false))
  }

  /** The flag state machine: with the image open every mutating command clears
      `is_saved` (attrib only when it changes a flag), and `savefs` and `closefs` set
      it; with the image closed every command that needs an image refuses with
      `NotOpen` and changes no table. */
  lemma FlagsStateMachine(fs: FS, name: string, source: Option<seq<byte>>, attribute: string)
    requires WellShaped(fs.disk)
    requires |name| > 0
    ensures fs.imageOpen ==>
      && !Insert.Insert(fs, name, source).fs.isSaved
      && !Remove.Delete(fs, name).fs.isSaved
      && !Remove.Undel(fs, name).fs.isSaved
      && (Attributes.Attrib(fs, attribute, name).code == Ok ==> !Attributes.Attrib(fs, attribute, name).fs.isSaved)
      && SaveFs(fs).fs.isSaved
      && CloseFs(fs).fs.isSaved && !CloseFs(fs).fs.imageOpen
    ensures !fs.imageOpen ==>
      && Insert.Insert(fs, name, source) == Outcome(NotOpen, fs)
      && Remove.Delete(fs, name) == Outcome(NotOpen, fs.(isSaved := false))
      && Remove.Undel(fs, name) == Outcome(NotOpen, fs.(isSaved := false))
      && Reading.ReadFile(fs, name, 0, 1) == Failure(NotOpen)
      && Listing.List(fs, None, None) == Failure(NotOpen)
      && Space.Df(fs) == Failure(NotOpen)
      && SaveFs(fs).code == NotOpen && SaveFs(fs).written.None?
  {
  }
}

=== FILE: listing.dfy ===
/**
 `list`: the in-use directory entries in table order, hidden ones only with
 `-h`, and the `[h]`/`[r]` markers only with `-a`.

 Each flag argument is either absent or must be `-h` or `-a`. The command
 loop refuses the command before any flag is looked at when no image is open.
 Printed lines become `Line` records; an empty result is the "Directory is
 empty" message.
 */
module Listing {
  import opened Layout
  import opened Alloc

  datatype ListFlags = ListFlags(showHidden: bool, showAttrib: bool)

  /** One printed line: the entry's name and which markers follow it. `slot` is the
      entry's position in the directory table, which the program does not print. */
  datatype Line = Line(slot: nat, filename: string, hiddenMark: bool, readOnlyMark: bool)

  /** Fold one flag argument into the flags. */
  function ApplyListFlag(flags: ListFlags, flag: Option<string>): (r: Result<ListFlags>)
    ensures r.Failure? <==> flag.Some? && flag.value != "-h" && flag.value != "-a"
    ensures r.Failure? ==> r.code == InvalidFlag
    ensures r.Success? ==> r.value.showHidden == (flags.showHidden || flag == Some("-h"))
    ensures r.Success? ==> r.value.showAttrib == (flags.showAttrib || flag == Some("-a"))
  {
    match flag
    case None => Success(flags)
    case Some(f) =>
      if f == "-h" then Success(flags.(showHidden := true))
      else if f == "-a" then Success(flags.(showAttrib := true))
      else Failure(InvalidFlag)
  }

  function ParseListFlags(flag1: Option<string>, flag2: Option<string>): (r: Result<ListFlags>)
    ensures r.Failure? <==>
      (flag1.Some? && flag1.value != "-h" && flag1.value != "-a") ||
      (flag2.Some? && flag2.value != "-h" && flag2.value != "-a")
    ensures r.Success? ==> r.value.showHidden == (flag1 == Some("-h") || flag2 == Some("-h"))
    ensures r.Success? ==> r.value.showAttrib == (flag1 == Some("-a") || flag2 == Some("-a"))
  {
    match ApplyListFlag(ListFlags(false, false), flag1)
    case Failure(code) => Failure(code)
    case Success(flags) => ApplyListFlag(flags, flag2)
  }

  /** The entry is printed: in use, and not hidden unless `-h` was given. */
  predicate Shown(e: DirEntry, flags: ListFlags) {
    e.inUse && (flags.showHidden || !e.hidden)
  }

  function LineOf(s: nat, e: DirEntry, flags: ListFlags): Line {
    Line(s, e.filename, flags.showAttrib && e.hidden, flags.showAttrib && e.readOnly)
  }

  /** `list`, with the command loop's open-image check that guards it. */
  function List(fs: FS, flag1: Option<string>, flag2: Option<string>): (r: Result<seq<Line>>)
    requires WellShaped(fs.disk)
    ensures r == Failure(NotOpen) <==> !fs.imageOpen
    ensures r == Failure(InvalidFlag) <==> fs.imageOpen && ParseListFlags(flag1, flag2).Failure?
    ensures r.Success? <==> fs.imageOpen && ParseListFlags(flag1, flag2).Success?
    ensures r.Success? || r.code in {NotOpen, InvalidFlag}
  {
    if !fs.imageOpen then Failure(NotOpen)
    else match ParseListFlags(flag1, flag2)
      case Failure(code) => Failure(code)
      case Success(flags) =>
        var dir := fs.disk.directory;
        var slots := IndicesFrom(dir, (e: DirEntry) => Shown(e, flags), 0);
        Success(seq(|slots|, k requires 0 <= k < |slots| => LineOf(slots[k], dir[slots[k]], flags)))
  }

  /** The listing is the shown entries, each once, in table order, each with its name
      and the markers `-a` asks for; it is empty exactly when no entry is shown. */
  lemma ListShowsEntries(fs: FS, flag1: Option<string>, flag2: Option<string>)
    requires WellShaped(fs.disk)
    requires List(fs, flag1, flag2).Success?
    ensures
      var lines := List(fs, flag1, flag2).value;
      var flags := ParseListFlags(flag1, flag2).value;
      var dir := fs.disk.directory;
      && (forall k :: 0 <= k < |lines| ==>
            lines[k].slot < NUM_FILES && Shown(dir[lines[k].slot], flags) &&
            lines[k] == LineOf(lines[k].slot, dir[lines[k].slot], flags))
      && (forall k, m :: 0 <= k < m < |lines| ==> lines[k].slot < lines[m].slot)
      && (forall s :: 0 <= s < NUM_FILES && Shown(dir[s], flags) ==> exists k :: 0 <= k < |lines| && lines[k].slot == s)
      && (|lines| == 0 <==> forall s :: 0 <= s < NUM_FILES ==> !Shown(dir[s], flags))
  {
    var flags := ParseListFlags(flag1, flag2).value;
    var dir := fs.disk.directory;
    var slots := IndicesFrom(dir, (e: DirEntry) => Shown(e, flags), 0);
    var lines := List(fs, flag1, flag2).value;
    assert |lines| == |slots|;
    forall k | 0 <= k < |lines|
      ensures lines[k].slot == slots[k] && slots[k] < NUM_FILES && Shown(dir[slots[k]], flags)
      ensures lines[k] == LineOf(lines[k].slot, dir[lines[k].slot], flags)
    {
    }
    if |lines| > 0 {
      assert Shown(dir[lines[0].slot], flags);
    }
    forall s | 0 <= s < NUM_FILES && Shown(dir[s], flags)
      ensures exists k :: 0 <= k < |lines| && lines[k].slot == s
    {
      assert s in slots;
      var k :| 0 <= k < |slots| && slots[k] == s;
      assert lines[k].slot == s;
    }
  }

  /** Markers appear only with `-a`, and hidden entries only with `-h`. */
  lemma ListFlagsGovernOutput(fs: FS, flag1: Option<string>, flag2: Option<string>)
    requires WellShaped(fs.disk)
    requires List(fs, flag1, flag2).Success?
    ensures
      var lines := List(fs, flag1, flag2).value;
      forall k :: 0 <= k < |lines| ==>
        && ((lines[k].hiddenMark || lines[k].readOnlyMark) ==> flag1 == Some("-a") || flag2 == Some("-a"))
        && (fs.disk.directory[lines[k].slot].hidden ==> flag1 == Some("-h") || flag2 == Some("-h"))
  {
    ListShowsEntries(fs, flag1, flag2);
  }
}

=== FILE: read.dfy ===
/**
 `read_file`: the bytes of a file from a starting byte on, walked block by block.

 The source prints the bytes in hex; here they are returned as a sequence.
 Where a chunk falls on a block-list position that holds the sentinel, the
 source would index the block store with -1; the model reports `Unallocated`.
 The byte arguments arrive already converted by `atoi` in the command loop.
 */
module Reading {
  import opened Layout
  import opened Tables
  import Insert

  /** The largest offset a file's block list can address. */
  const FILE_CAPACITY: nat := BLOCK_SIZE * BLOCKS_PER_FILE

  /** One pass of the read loop: `length` bytes from block-list position `position`,
      starting `offset` bytes into that block. */
  datatype Chunk = Chunk(position: nat, offset: nat, length: nat)

  function TotalLength(cs: seq<Chunk>): nat {
    if cs == [] then 0 else cs[0].length + TotalLength(cs[1..])
  }

  /** The read loop's chunks for `remaining` bytes from `offset` in block `position`:
      each chunk stays inside its block, only the first may start inside a block,
      only the last may end before a block's end, and together they cover the bytes. */
  function Chunks(position: nat, offset: nat, remaining: nat): (cs: seq<Chunk>)
    requires offset < BLOCK_SIZE
    ensures TotalLength(cs) == remaining
    ensures |cs| > 0 ==> cs[0].position == position && cs[0].offset == offset
    ensures forall k :: 0 <= k < |cs| ==> cs[k].position == position + k
    ensures forall k :: 0 <= k < |cs| ==> 0 < cs[k].length && cs[k].offset + cs[k].length <= BLOCK_SIZE
    ensures forall k :: 0 < k < |cs| ==> cs[k].offset == 0
    ensures forall k :: 0 <= k < |cs| - 1 ==> cs[k].offset + cs[k].length == BLOCK_SIZE
    ensures forall k :: 0 <= k < |cs| ==>
      cs[k].position * BLOCK_SIZE + cs[k].offset + cs[k].length <= position * BLOCK_SIZE + offset + remaining
    decreases remaining
  {
    if remaining == 0 then []
    else
      var n := Min(BLOCK_SIZE - offset, remaining);
      [Chunk(position, offset, n)] + Chunks(position + 1, 0, remaining - n)
  }

  /** Every chunk's block-list position names a block of the store. */
  predicate Allocated(blocks: seq<int>, cs: seq<Chunk>) {
    forall k :: 0 <= k < |cs| ==> cs[k].position < |blocks| && 0 <= blocks[cs[k].position] < NUM_BLOCKS
  }

  /** Every block-list position a read of `count` bytes from file byte `start` touches,
      `start / BLOCK_SIZE` through `(start + count - 1) / BLOCK_SIZE`, names a block of the store. */
  predicate RangeAllocated(blocks: seq<int>, start: nat, count: nat) {
    count == 0 ||
    forall p :: start / BLOCK_SIZE <= p <= (start + count - 1) / BLOCK_SIZE ==>
      p < |blocks| && 0 <= blocks[p] < NUM_BLOCKS
  }

  /** The bytes the read loop emits for the chunks, in order. */
  function Emit(blocks: seq<int>, data: seq<Block>, cs: seq<Chunk>): (bytes: seq<byte>)
    requires |data| == NUM_BLOCKS && forall b :: 0 <= b < NUM_BLOCKS ==> |data[b]| == BLOCK_SIZE
    requires Allocated(blocks, cs)
    requires forall k :: 0 <= k < |cs| ==> cs[k].offset + cs[k].length <= BLOCK_SIZE
    ensures |bytes| == TotalLength(cs)
  {
    if cs == [] then []
    else
      var c := cs[0];
      data[blocks[c.position]][c.offset .. c.offset + c.length] + Emit(blocks, data, cs[1..])
  }

  /** `read_file`, with the command loop's argument conversion already done. */
  function ReadFile(fs: FS, name: string, start: int, count: int): (r: Result<seq<byte>>)
    requires WellShaped(fs.disk)
    ensures r == Failure(NotOpen) <==> !fs.imageOpen
    ensures r == Failure(NotFound) <==> fs.imageOpen && Lookup(fs.disk.directory, name).None?
    ensures r == Failure(InvalidStart) <==>
      fs.imageOpen && Lookup(fs.disk.directory, name).Some? && !(0 <= start < FILE_CAPACITY)
    ensures r == Failure(InvalidCount) <==>
      fs.imageOpen && Lookup(fs.disk.directory, name).Some? && 0 <= start < FILE_CAPACITY &&
      !(0 < count <= FILE_CAPACITY - start)
    ensures r.Success? ==> |r.value| == count
    ensures r.Success? <==>
      && fs.imageOpen && Lookup(fs.disk.directory, name).Some?
      && 0 <= start < FILE_CAPACITY && 0 < count <= FILE_CAPACITY - start
      && RangeAllocated(fs.disk.inodes[fs.disk.directory[Lookup(fs.disk.directory, name).value].inode].blocks, start, count)
    ensures r.Success? || r.code in {NotOpen, NotFound, InvalidStart, InvalidCount, Unallocated}
  {
    if !fs.imageOpen then Failure(NotOpen)
    else match Lookup(fs.disk.directory, name)
      case None => Failure(NotFound)
      case Some(s) =>
        if start < 0 || start >= FILE_CAPACITY then Failure(InvalidStart)
        else if count <= 0 || count > FILE_CAPACITY - start then Failure(InvalidCount)
        else
          ReadBlocks(fs.disk.inodes[fs.disk.directory[s].inode].blocks, fs.disk.data, start, count)
  }

  /** The read loop over a file's block list once the arguments have been checked. */
  function ReadBlocks(blocks: seq<int>, data: seq<Block>, start: nat, count: nat): (r: Result<seq<byte>>)
    requires |data| == NUM_BLOCKS && forall b :: 0 <= b < NUM_BLOCKS ==> |data[b]| == BLOCK_SIZE
    ensures r.Success? ==> |r.value| == count
    ensures r.Success? <==> RangeAllocated(blocks, start, count)
    ensures r.Failure? ==> r.code == Unallocated
  {
    var cs := Chunks(start / BLOCK_SIZE, start % BLOCK_SIZE, count);
    AllocatedRange(blocks, start, count);
    if Allocated(blocks, cs) then Success(Emit(blocks, data, cs))
    else Failure(Unallocated)
  }

  /** The read loop makes one pass per block it touches. */
  lemma {:induction false} ChunksCount(position: nat, offset: nat, remaining: nat)
    requires offset < BLOCK_SIZE && 0 < remaining
    ensures |Chunks(position, offset, remaining)| == (offset + remaining - 1) / BLOCK_SIZE + 1
    decreases remaining
  {
    var n := Min(BLOCK_SIZE - offset, remaining);
    if n < remaining {
      ChunksCount(position + 1, 0, remaining - n);
      assert offset + remaining - 1 == (remaining - n - 1) + BLOCK_SIZE;
    }
  }

  /** The chunks of a read touch exactly the positions `RangeAllocated` names. */
  lemma AllocatedRange(blocks: seq<int>, start: nat, count: nat)
    ensures Allocated(blocks, Chunks(start / BLOCK_SIZE, start % BLOCK_SIZE, count)) <==> RangeAllocated(blocks, start, count)
  {
    if count > 0 {
      var p0, o := start / BLOCK_SIZE, start % BLOCK_SIZE;
      var cs := Chunks(p0, o, count);
      ChunksCount(p0, o, count);
      var last := (start + count - 1) / BLOCK_SIZE;
      assert start + count - 1 == p0 * BLOCK_SIZE + (o + count - 1);
      assert last == p0 + (o + count - 1) / BLOCK_SIZE;
      assert |cs| == last - p0 + 1;
      if Allocated(blocks, cs) {
        forall p | p0 <= p <= last
          ensures p < |blocks| && 0 <= blocks[p] < NUM_BLOCKS
        {
          assert cs[p - p0].position == p;
        }
      }
      if RangeAllocated(blocks, start, count) {
        forall k | 0 <= k < |cs|
          ensures cs[k].position < |blocks| && 0 <= blocks[cs[k].position] < NUM_BLOCKS
        {
          assert p0 <= cs[k].position <= last;
        }
      }
    }
  }

  /** Block `p`, offset `o` is file byte `p * BLOCK_SIZE + o`. */
  lemma FileOffset(p: nat, o: nat)
    requires o < BLOCK_SIZE
    ensures (p * BLOCK_SIZE + o) / BLOCK_SIZE == p
    ensures (p * BLOCK_SIZE + o) % BLOCK_SIZE == o
  {
  }

  /** `v` is file byte `x` of a file with block list `blocks`: the byte at offset
      `x % BLOCK_SIZE` of the block at block-list position `x / BLOCK_SIZE`. */
  ghost predicate Located(blocks: seq<int>, data: seq<Block>, x: nat, v: byte)
    requires |data| == NUM_BLOCKS && forall b :: 0 <= b < NUM_BLOCKS ==> |data[b]| == BLOCK_SIZE
  {
    x / BLOCK_SIZE < |blocks| && 0 <= blocks[x / BLOCK_SIZE] < NUM_BLOCKS &&
    v == data[blocks[x / BLOCK_SIZE]][x % BLOCK_SIZE]
  }

  /** `bytes` are the file's bytes from file byte `g` on. */
  ghost predicate BytesAt(blocks: seq<int>, data: seq<Block>, g: nat, bytes: seq<byte>)
    requires |data| == NUM_BLOCKS && forall b :: 0 <= b < NUM_BLOCKS ==> |data[b]| == BLOCK_SIZE
  {
    forall t {:trigger bytes[t]} :: 0 <= t < |bytes| ==> Located(blocks, data, g + t, bytes[t])
  }

  lemma BytesAtConcat(blocks: seq<int>, data: seq<Block>, g: nat, a: seq<byte>, b: seq<byte>)
    requires |data| == NUM_BLOCKS && forall x :: 0 <= x < NUM_BLOCKS ==> |data[x]| == BLOCK_SIZE
    requires BytesAt(blocks, data, g, a)
    requires BytesAt(blocks, data, g + |a|, b)
    ensures BytesAt(blocks, data, g, a + b)
  {
    var ab := a + b;
    forall t | 0 <= t < |ab|
      ensures Located(blocks, data, g + t, ab[t])
    {
      if t < |a| {
        assert ab[t] == a[t];
      } else {
        var u := t - |a|;
        assert ab[t] == b[u];
        BytesAtShift(blocks, data, g + |a|, b, u, g + t);
      }
    }
  }

  /** Byte `u` of the bytes from file byte `h` on is file byte `x = h + u`. */
  lemma BytesAtShift(blocks: seq<int>, data: seq<Block>, h: nat, b: seq<byte>, u: nat, x: nat)
    requires |data| == NUM_BLOCKS && forall y :: 0 <= y < NUM_BLOCKS ==> |data[y]| == BLOCK_SIZE
    requires BytesAt(blocks, data, h, b) && u < |b| && x == h + u
    ensures Located(blocks, data, x, b[u])
  {
    var byte := b[u];
    assert Located(blocks, data, h + u, byte);
  }

  /** The bytes of one chunk are file bytes from its block and offset on. */
  lemma ChunkBytesAt(blocks: seq<int>, data: seq<Block>, c: Chunk)
    requires |data| == NUM_BLOCKS && forall x :: 0 <= x < NUM_BLOCKS ==> |data[x]| == BLOCK_SIZE
    requires c.offset + c.length <= BLOCK_SIZE
    requires c.position < |blocks| && 0 <= blocks[c.position] < NUM_BLOCKS
    ensures BytesAt(blocks, data, c.position * BLOCK_SIZE + c.offset,
      data[blocks[c.position]][c.offset .. c.offset + c.length])
  {
    var g := c.position * BLOCK_SIZE + c.offset;
    var bytes := data[blocks[c.position]][c.offset .. c.offset + c.length];
    forall t | 0 <= t < |bytes|
      ensures Located(blocks, data, g + t, bytes[t])
    {
      FileOffset(c.position, c.offset + t);
    }
  }

  /** The first step of the chunking: one chunk, then the chunks from the next block. */
  lemma ChunksSplit(position: nat, offset: nat, remaining: nat)
    requires offset < BLOCK_SIZE && 0 < remaining
    ensures
      var n := Min(BLOCK_SIZE - offset, remaining);
      Chunks(position, offset, remaining) == [Chunk(position, offset, n)] + Chunks(position + 1, 0, remaining - n)
  {
  }

  lemma AllocatedCons(blocks: seq<int>, c: Chunk, rest: seq<Chunk>)
    requires Allocated(blocks, [c] + rest)
    ensures c.position < |blocks| && 0 <= blocks[c.position] < NUM_BLOCKS
    ensures Allocated(blocks, rest)
  {
    var cs := [c] + rest;
    assert cs[0] == c;
    forall k | 0 <= k < |rest|
      ensures rest[k].position < |blocks| && 0 <= blocks[rest[k].position] < NUM_BLOCKS
    {
      assert rest[k] == cs[k + 1];
    }
  }

  lemma EmitCons(blocks: seq<int>, data: seq<Block>, c: Chunk, rest: seq<Chunk>)
    requires |data| == NUM_BLOCKS && forall b :: 0 <= b < NUM_BLOCKS ==> |data[b]| == BLOCK_SIZE
    requires Allocated(blocks, [c] + rest)
    requires forall k :: 0 <= k < |[c] + rest| ==> ([c] + rest)[k].offset + ([c] + rest)[k].length <= BLOCK_SIZE
    ensures Allocated(blocks, rest) && c.offset + c.length <= BLOCK_SIZE
    ensures forall k :: 0 <= k < |rest| ==> rest[k].offset + rest[k].length <= BLOCK_SIZE
    ensures c.position < |blocks| && 0 <= blocks[c.position] < NUM_BLOCKS
    ensures Emit(blocks, data, [c] + rest) == data[blocks[c.position]][c.offset .. c.offset + c.length] + Emit(blocks, data, rest)
  {
    var cs := [c] + rest;
    AllocatedCons(blocks, c, rest);
    assert cs[0] == c;
    assert cs[1..] == rest;
    forall k | 0 <= k < |rest|
      ensures rest[k].offset + rest[k].length <= BLOCK_SIZE
    {
      assert rest[k] == cs[k + 1];
    }
  }

  /** The chunked read emits the file's bytes from `position * BLOCK_SIZE + offset` on. */
  lemma {:induction false} EmitChunks(blocks: seq<int>, data: seq<Block>, position: nat, offset: nat, remaining: nat)
    requires |data| == NUM_BLOCKS && forall b :: 0 <= b < NUM_BLOCKS ==> |data[b]| == BLOCK_SIZE
    requires offset < BLOCK_SIZE
    requires Allocated(blocks, Chunks(position, offset, remaining))
    ensures BytesAt(blocks, data, position * BLOCK_SIZE + offset, Emit(blocks, data, Chunks(position, offset, remaining)))
    decreases remaining
  {
    if remaining > 0 {
      var n := Min(BLOCK_SIZE - offset, remaining);
      ChunksSplit(position, offset, remaining);
      AllocatedCons(blocks, Chunk(position, offset, n), Chunks(position + 1, 0, remaining - n));
      EmitChunks(blocks, data, position + 1, 0, remaining - n);
      EmitStep(blocks, data, position, offset, remaining);
    } else {
      assert Chunks(position, offset, remaining) == [];
    }
  }

  /** The inductive step of `EmitChunks`: the first chunk's bytes joined to the bytes
      from the next block on. */
  lemma EmitStep(blocks: seq<int>, data: seq<Block>, position: nat, offset: nat, remaining: nat)
    requires |data| == NUM_BLOCKS && forall b :: 0 <= b < NUM_BLOCKS ==> |data[b]| == BLOCK_SIZE
    requires offset < BLOCK_SIZE && 0 < remaining
    requires Allocated(blocks, Chunks(position, offset, remaining))
    requires
      var n := Min(BLOCK_SIZE - offset, remaining);
      && Allocated(blocks, Chunks(position + 1, 0, remaining - n))
      && BytesAt(blocks, data, (position + 1) * BLOCK_SIZE + 0, Emit(blocks, data, Chunks(position + 1, 0, remaining - n)))
    ensures BytesAt(blocks, data, position * BLOCK_SIZE + offset, Emit(blocks, data, Chunks(position, offset, remaining)))
  {
    var n := Min(BLOCK_SIZE - offset, remaining);
    var c := Chunk(position, offset, n);
    var rest := Chunks(position + 1, 0, remaining - n);
    ChunksSplit(position, offset, remaining);
    EmitCons(blocks, data, c, rest);
    var head := data[blocks[position]][offset .. offset + n];
    var tail := Emit(blocks, data, rest);
    ChunkBytesAt(blocks, data, c);
    EmitJoin(blocks, data, position, offset, n, head, tail, remaining);
  }

  /** A chunk's bytes followed by the bytes from the next block on are file bytes from the chunk on. */
  lemma EmitJoin(blocks: seq<int>, data: seq<Block>, position: nat, offset: nat, n: nat,
                 head: seq<byte>, tail: seq<byte>, remaining: nat)
    requires |data| == NUM_BLOCKS && forall b :: 0 <= b < NUM_BLOCKS ==> |data[b]| == BLOCK_SIZE
    requires |head| == n && n == Min(BLOCK_SIZE - offset, remaining) && offset < BLOCK_SIZE
    requires |tail| == remaining - n
    requires BytesAt(blocks, data, position * BLOCK_SIZE + offset, head)
    requires BytesAt(blocks, data, (position + 1) * BLOCK_SIZE + 0, tail)
    ensures BytesAt(blocks, data, position * BLOCK_SIZE + offset, head + tail)
  {
    if n < remaining {
      assert position * BLOCK_SIZE + offset + |head| == (position + 1) * BLOCK_SIZE + 0;
    } else {
      assert tail == [];
      assert head + tail == head;
    }
    BytesAtConcat(blocks, data, position * BLOCK_SIZE + offset, head, tail);
  }

  /** A successful read returns, as its byte `t`, byte `(start + t) % BLOCK_SIZE` of the
      block at block-list position `(start + t) / BLOCK_SIZE` of the file's inode. */
  lemma ReadFileBytes(fs: FS, name: string, start: int, count: int)
    requires WellShaped(fs.disk)
    requires ReadFile(fs, name, start, count).Success?
    ensures Lookup(fs.disk.directory, name).Some? && 0 <= start
    ensures BytesAt(fs.disk.inodes[fs.disk.directory[Lookup(fs.disk.directory, name).value].inode].blocks,
      fs.disk.data, start, ReadFile(fs, name, start, count).value)
  {
    var s := Lookup(fs.disk.directory, name).value;
    var blocks := fs.disk.inodes[fs.disk.directory[s].inode].blocks;
    assert ReadFile(fs, name, start, count) == ReadBlocks(blocks, fs.disk.data, start, count);
    ReadBlocksBytes(blocks, fs.disk.data, start, count);
  }

  lemma ReadBlocksBytes(blocks: seq<int>, data: seq<Block>, start: nat, count: nat)
    requires |data| == NUM_BLOCKS && forall b :: 0 <= b < NUM_BLOCKS ==> |data[b]| == BLOCK_SIZE
    requires ReadBlocks(blocks, data, start, count).Success?
    ensures BytesAt(blocks, data, start, ReadBlocks(blocks, data, start, count).value)
  {
    assert (start / BLOCK_SIZE) * BLOCK_SIZE + start % BLOCK_SIZE == start;
    EmitChunks(blocks, data, start / BLOCK_SIZE, start % BLOCK_SIZE, count);
  }

  /** A freshly inserted file is the first in-use entry with its name when no in-use
      entry had the name before. */
  lemma InsertedFileFound(fs: FS, name: string, source: Option<seq<byte>>)
    requires WellShaped(fs.disk)
    requires Lookup(fs.disk.directory, name).None?
    requires Insert.Insert(fs, name, source).code == Ok
    ensures FreeDirectorySlot(fs.disk.directory).Some? && FreeInodeSlot(fs.disk.inodes).Some?
    ensures Lookup(Insert.Insert(fs, name, source).fs.disk.directory, name) == FreeDirectorySlot(fs.disk.directory)
    ensures Insert.Insert(fs, name, source).fs.disk.directory[FreeDirectorySlot(fs.disk.directory).value].inode ==
      FreeInodeSlot(fs.disk.inodes).value
  {
    Insert.InsertRecordsFile(fs, name, source);
    var slot := FreeDirectorySlot(fs.disk.directory).value;
    var r := Insert.Insert(fs, name, source).fs.disk;
    forall t | 0 <= t < slot
      ensures !(r.directory[t].inUse && r.directory[t].filename == name)
    {
      assert r.directory[t] == fs.disk.directory[t];
    }
  }

  /** A file whose held blocks carry `content` byte for byte reads back as `content`. */
  lemma ReadHeldContent(fs: FS, name: string, content: seq<byte>)
    requires WellShaped(fs.disk) && fs.imageOpen
    requires Lookup(fs.disk.directory, name).Some?
    requires 0 < |content|
    requires
      var held := Held(fs.disk.inodes[fs.disk.directory[Lookup(fs.disk.directory, name).value].inode]);
      && |held| == Insert.RequiredBlocks(|content|) <= BLOCKS_PER_FILE
      && (forall m :: 0 <= m < |held| ==> IsDataBlock(held[m]))
      && forall t :: 0 <= t < |content| ==>
           t / BLOCK_SIZE < |held| && fs.disk.data[held[t / BLOCK_SIZE]][t % BLOCK_SIZE] == content[t]
    ensures ReadFile(fs, name, 0, |content|) == Success(content)
  {
    var d := fs.disk;
    var v := d.directory[Lookup(d.directory, name).value].inode;
    var held := Held(d.inodes[v]);
    var blocks := d.inodes[v].blocks;
    assert |content| <= FILE_CAPACITY;
    ChunksAllocated(d, v, |content|);
    var r := ReadFile(fs, name, 0, |content|);
    assert r.Success?;
    ReadFileBytes(fs, name, 0, |content|);
    var bytes := r.value;
    assert BytesAt(blocks, d.data, 0, bytes);
    forall t | 0 <= t < |content|
      ensures bytes[t] == content[t]
    {
      assert Located(blocks, d.data, 0 + t, bytes[t]);
      assert 0 + t == t;
      assert bytes[t] == d.data[blocks[t / BLOCK_SIZE]][t % BLOCK_SIZE];
      assert held[t / BLOCK_SIZE] == blocks[t / BLOCK_SIZE];
    }
    assert bytes == content;
  }

  /** Reading a freshly inserted file from byte 0 for its whole length returns exactly
      the bytes that were inserted. */
  lemma InsertReadRoundTrip(fs: FS, name: string, content: seq<byte>)
    requires WellShaped(fs.disk)
    requires Lookup(fs.disk.directory, name).None?
    requires 0 < |content|
    requires Insert.Insert(fs, name, Some(content)).code == Ok
    ensures ReadFile(Insert.Insert(fs, name, Some(content)).fs, name, 0, |content|) == Success(content)
  {
    InsertedFileFound(fs, name, Some(content));
    Insert.InsertRecordsFile(fs, name, Some(content));
    Insert.InsertStoresContent(fs, name, Some(content));
    ReadHeldContent(Insert.Insert(fs, name, Some(content)).fs, name, content);
  }

  /** Every chunk of a read of the first `size` bytes falls on a block the file holds,
      when the file holds enough blocks for `size` bytes. */
  lemma ChunksAllocated(d: Disk, v: nat, size: nat)
    requires WellShaped(d) && v < NUM_FILES
    requires size <= |Held(d.inodes[v])| * BLOCK_SIZE
    requires forall m :: 0 <= m < |Held(d.inodes[v])| ==> IsDataBlock(Held(d.inodes[v])[m])
    ensures Allocated(d.inodes[v].blocks, Chunks(0, 0, size))
  {
    var cs := Chunks(0, 0, size);
    var held := Held(d.inodes[v]);
    forall k | 0 <= k < |cs|
      ensures cs[k].position < |d.inodes[v].blocks| && 0 <= d.inodes[v].blocks[cs[k].position] < NUM_BLOCKS
    {
      assert cs[k].position == k;
      assert k * BLOCK_SIZE < |held| * BLOCK_SIZE;
      assert k < |held|;
      assert d.inodes[v].blocks[k] == held[k];
    }
  }
}

=== FILE: remove.dfy ===
/**
 `delete` and `undel`: a deleted file keeps its directory entry, name and
 inode number, and its inode keeps its block list, so `undel` can bring it back.

 The source frees (and `undel` re-claims) every flag from the file's first
 block number up to the number BLOCKS_PER_FILE, comparing a block number with
 a block count. `Delete` and `Undel` act on the blocks the file owns instead;
 `DeleteAsWritten` and `UndelAsWritten` keep the source's range.

 Both commands clear `is_saved` before they check that an image is open.
 */
module Remove {
  import opened Layout
  import opened Alloc
  import opened Tables

  /** Flags `[from, BLOCKS_PER_FILE)` of the bitmap set to `value`: the loop of the
      source, whose lower end is the file's first block number. A lower end of -1
      (a file with no blocks) would write before the bitmap; that write is dropped. */
  function SetRange(free: seq<bool>, from: int, value: bool): (r: seq<bool>)
    requires |free| == NUM_BLOCKS
    ensures |r| == NUM_BLOCKS
    ensures forall j :: 0 <= j < NUM_BLOCKS && from <= j < BLOCKS_PER_FILE ==> r[j] == value
    ensures forall j :: 0 <= j < NUM_BLOCKS && !(from <= j < BLOCKS_PER_FILE) ==> r[j] == free[j]
  {
    seq(NUM_BLOCKS, j requires 0 <= j < NUM_BLOCKS => if from <= j < BLOCKS_PER_FILE then value else free[j])
  }

  /** The inode an entry names. */
  function InodeOf(d: Disk, s: nat): (v: nat)
    requires WellShaped(d) && s < NUM_FILES
    requires d.directory[s].inUse || d.directory[s].filename != []
    ensures v < NUM_FILES
  {
    d.directory[s].inode
  }

  /** Clear the entry's and its inode's `in_use` and give the file's blocks back. */
  function Release(d: Disk, s: nat): (r: Disk)
    requires WellShaped(d) && s < NUM_FILES && d.directory[s].inUse
    ensures WellShaped(r)
  {
    var v := InodeOf(d, s);
    d.(directory := d.directory[s := d.directory[s].(inUse := false)],
       inodes := d.inodes[v := d.inodes[v].(inUse := false)],
       freeBlocks := MarkFree(d.freeBlocks, Held(d.inodes[v])))
  }

  /** `Release` with the source's range of flags. */
  function ReleaseAsWritten(d: Disk, s: nat): (r: Disk)
    requires WellShaped(d) && s < NUM_FILES && d.directory[s].inUse
    ensures WellShaped(r)
  {
    var v := InodeOf(d, s);
    d.(directory := d.directory[s := d.directory[s].(inUse := false)],
       inodes := d.inodes[v := d.inodes[v].(inUse := false)],
       freeBlocks := SetRange(d.freeBlocks, d.inodes[v].blocks[0], true))
  }

  /** The checks of `delete`: open image, first in-use entry with the name, not read-only. */
  function DeleteTarget(fs: FS, name: string): (r: Result<nat>)
    requires WellShaped(fs.disk)
    ensures r.Success? <==>
      fs.imageOpen && Lookup(fs.disk.directory, name).Some? &&
      !fs.disk.directory[Lookup(fs.disk.directory, name).value].readOnly
    ensures r.Success? ==> r.value == Lookup(fs.disk.directory, name).value
    ensures r == Failure(NotOpen) <==> !fs.imageOpen
    ensures r == Failure(NotFound) <==> fs.imageOpen && Lookup(fs.disk.directory, name).None?
    ensures r == Failure(ReadOnly) <==>
      fs.imageOpen && Lookup(fs.disk.directory, name).Some? &&
      fs.disk.directory[Lookup(fs.disk.directory, name).value].readOnly
  {
    if !fs.imageOpen then Failure(NotOpen)
    else match Lookup(fs.disk.directory, name)
      case None => Failure(NotFound)
      case Some(s) => if fs.disk.directory[s].readOnly then Failure(ReadOnly) else Success(s)
  }

  /** `delete`, releasing the blocks the file owns. */
  function Delete(fs: FS, name: string): (r: Outcome)
    requires WellShaped(fs.disk)
    ensures WellShaped(r.fs.disk)
    ensures !r.fs.isSaved && r.fs.imageOpen == fs.imageOpen
    ensures r.code == Ok <==> DeleteTarget(fs, name).Success?
    ensures r.code != Ok ==> r.code == DeleteTarget(fs, name).code && r.fs.disk == fs.disk
  {
    var fs0 := fs.(isSaved := false);
    match DeleteTarget(fs, name)
    case Failure(code) => Outcome(code, fs0)
    case Success(s) => Outcome(Ok, fs0.(disk := Release(fs.disk, s)))
  }

  /** `delete` as the source writes it. */
  function DeleteAsWritten(fs: FS, name: string): (r: Outcome)
    requires WellShaped(fs.disk)
    ensures WellShaped(r.fs.disk)
    ensures r.code == Delete(fs, name).code
    ensures r.code != Ok ==> r.fs == Delete(fs, name).fs
  {
    var fs0 := fs.(isSaved := false);
    match DeleteTarget(fs, name)
    case Failure(code) => Outcome(code, fs0)
    case Success(s) => Outcome(Ok, fs0.(disk := ReleaseAsWritten(fs.disk, s)))
  }

  /** The checks of `undel`: open image, first entry NOT in use with the name, inode not in use. */
  function UndelTarget(fs: FS, name: string): (r: Result<nat>)
    requires WellShaped(fs.disk)
    requires |name| > 0
    ensures r.Success? ==>
      && LookupDeleted(fs.disk.directory, name) == Some(r.value)
      && !fs.disk.inodes[InodeOf(fs.disk, r.value)].inUse
    ensures r == Failure(NotOpen) <==> !fs.imageOpen
    ensures r == Failure(NotFound) <==> fs.imageOpen && LookupDeleted(fs.disk.directory, name).None?
    ensures r == Failure(NotDeleted) <==>
      fs.imageOpen && LookupDeleted(fs.disk.directory, name).Some? &&
      fs.disk.inodes[InodeOf(fs.disk, LookupDeleted(fs.disk.directory, name).value)].inUse
    ensures r.Success? || r.code in {NotOpen, NotFound, NotDeleted}
  {
    if !fs.imageOpen then Failure(NotOpen)
    else match LookupDeleted(fs.disk.directory, name)
      case None => Failure(NotFound)
      case Some(s) => if fs.disk.inodes[InodeOf(fs.disk, s)].inUse then Failure(NotDeleted) else Success(s)
  }

  /** Mark the entry and its inode in use again and take the file's blocks back. */
  function Reclaim(d: Disk, s: nat): (r: Disk)
    requires WellShaped(d) && s < NUM_FILES && d.directory[s].filename != []
    ensures WellShaped(r)
  {
    var v := InodeOf(d, s);
    d.(directory := d.directory[s := d.directory[s].(inUse := true)],
       inodes := d.inodes[v := d.inodes[v].(inUse := true)],
       freeBlocks := MarkUsed(d.freeBlocks, Held(d.inodes[v])))
  }

  /** `Reclaim` with the source's range of flags. */
  function ReclaimAsWritten(d: Disk, s: nat): (r: Disk)
    requires WellShaped(d) && s < NUM_FILES && d.directory[s].filename != []
    ensures WellShaped(r)
  {
    var v := InodeOf(d, s);
    d.(directory := d.directory[s := d.directory[s].(inUse := true)],
       inodes := d.inodes[v := d.inodes[v].(inUse := true)],
       freeBlocks := SetRange(d.freeBlocks, d.inodes[v].blocks[0], false))
  }

  /** `undel`, re-claiming the blocks the file's inode lists, with no check that they
      are still free. The command line never passes an empty name. */
  function Undel(fs: FS, name: string): (r: Outcome)
    requires WellShaped(fs.disk)
    requires |name| > 0
    ensures WellShaped(r.fs.disk)
    ensures !r.fs.isSaved && r.fs.imageOpen == fs.imageOpen
    ensures r.code == Ok <==> UndelTarget(fs, name).Success?
    ensures r.code != Ok ==> r.code == UndelTarget(fs, name).code && r.fs.disk == fs.disk
  {
    var fs0 := fs.(isSaved := false);
    match UndelTarget(fs, name)
    case Failure(code) => Outcome(code, fs0)
    case Success(s) => Outcome(Ok, fs0.(disk := Reclaim(fs.disk, s)))
  }

  /** `undel` as the source writes it. */
  function UndelAsWritten(fs: FS, name: string): (r: Outcome)
    requires WellShaped(fs.disk)
    requires |name| > 0
    ensures WellShaped(r.fs.disk)
    ensures r.code == Undel(fs, name).code
    ensures r.code != Ok ==> r.fs == Undel(fs, name).fs
  {
    var fs0 := fs.(isSaved := false);
    match UndelTarget(fs, name)
    case Failure(code) => Outcome(code, fs0)
    case Success(s) => Outcome(Ok, fs0.(disk := ReclaimAsWritten(fs.disk, s)))
  }

  /** Some block the inode lists is no longer free: another file has it now. */
  predicate Taken(d: Disk, v: nat)
    requires WellShaped(d) && v < NUM_FILES
  {
    exists k :: 0 <= k < |Held(d.inodes[v])| && 0 <= Held(d.inodes[v])[k] < NUM_BLOCKS &&
      !d.freeBlocks[Held(d.inodes[v])[k]]
  }

  /** `undel` that refuses with `Conflict` when a block of the file went to another file. */
  function UndelChecked(fs: FS, name: string): (r: Outcome)
    requires WellShaped(fs.disk)
    requires |name| > 0
    ensures WellShaped(r.fs.disk)
    ensures r.code == Conflict <==>
      UndelTarget(fs, name).Success? && Taken(fs.disk, InodeOf(fs.disk, UndelTarget(fs, name).value))
    ensures r.code == Conflict ==> r.fs == Undel(fs, name).fs.(disk := fs.disk)
    ensures r.code != Conflict ==> r == Undel(fs, name)
  {
    match UndelTarget(fs, name)
    case Success(s) =>
      if Taken(fs.disk, InodeOf(fs.disk, s)) then Outcome(Conflict, fs.(isSaved := false))
      else Undel(fs, name)
    case Failure(_) => Undel(fs, name)
  }

  // ---------------------------------------------------------------------------
  // Effects of the corrected commands
  // ---------------------------------------------------------------------------

  /** A successful delete clears the entry's and its inode's `in_use`, keeps the
      name, inode number and block list for `undel`, frees exactly the file's
      blocks, and leaves everything else alone. */
  lemma DeleteReleasesFile(fs: FS, name: string)
    requires WellShaped(fs.disk)
    requires Delete(fs, name).code == Ok
    ensures Lookup(fs.disk.directory, name).Some?
    ensures
      var d, r := fs.disk, Delete(fs, name).fs.disk;
      var s := Lookup(d.directory, name).value;
      var v := InodeOf(d, s);
      && r.directory[s] == d.directory[s].(inUse := false)
      && r.inodes[v] == d.inodes[v].(inUse := false)
      && (forall t :: 0 <= t < NUM_FILES && t != s ==> r.directory[t] == d.directory[t])
      && (forall i :: 0 <= i < NUM_FILES && i != v ==> r.inodes[i] == d.inodes[i])
      && (forall b :: 0 <= b < NUM_BLOCKS ==> (r.freeBlocks[b] <==> d.freeBlocks[b] || b in Held(d.inodes[v])))
      && r.data == d.data && r.freeInodes == d.freeInodes
  {
  }

  /** The source's undel never looks for an in-use file with the name it revives: when a
      live file has taken the name since the delete, the undel succeeds and two in-use
      entries carry it. */
  lemma UndelDuplicatesName(fs: FS, name: string)
    requires WellShaped(fs.disk)
    requires |name| > 0
    requires fs.imageOpen
    requires Lookup(fs.disk.directory, name).Some?
    requires LookupDeleted(fs.disk.directory, name).Some?
    requires !fs.disk.inodes[InodeOf(fs.disk, LookupDeleted(fs.disk.directory, name).value)].inUse
    ensures Undel(fs, name).code == Ok
    ensures
      var r := Undel(fs, name).fs.disk.directory;
      var s, t := Lookup(fs.disk.directory, name).value, LookupDeleted(fs.disk.directory, name).value;
      && s != t
      && r[s].inUse && r[s].filename == name
      && r[t].inUse && r[t].filename == name
    ensures !UniqueNames(Undel(fs, name).fs.disk.directory)
  {
    UndelRevivesFile(fs, name);
    var r := Undel(fs, name).fs.disk.directory;
    var s, t := Lookup(fs.disk.directory, name).value, LookupDeleted(fs.disk.directory, name).value;
    assert r[s] == fs.disk.directory[s];
    if s < t {
      assert !(r[s].filename != r[t].filename);
    } else {
      assert !(r[t].filename != r[s].filename);
    }
  }

  /** The undel the names' uniqueness calls for: reviving a name an in-use file carries
      is refused with NameTaken, which clears `is_saved` and changes no table; otherwise
      it is the checked undel. */
  function UndelUnique(fs: FS, name: string): (r: Outcome)
    requires WellShaped(fs.disk)
    requires |name| > 0
    ensures WellShaped(r.fs.disk)
    ensures r.code == NameTaken <==> fs.imageOpen && Lookup(fs.disk.directory, name).Some?
    ensures r.code == NameTaken ==> r.fs == fs.(isSaved := false)
    ensures r.code != NameTaken ==> r == UndelChecked(fs, name)
  {
    if fs.imageOpen && Lookup(fs.disk.directory, name).Some? then Outcome(NameTaken, fs.(isSaved := false))
    else UndelChecked(fs, name)
  }

  /** The name-checked undel keeps the names of in-use files unique. */
  lemma UndelUniqueKeepsNamesUnique(fs: FS, name: string)
    requires WellShaped(fs.disk)
    requires |name| > 0
    requires UniqueNames(fs.disk.directory)
    ensures UniqueNames(UndelUnique(fs, name).fs.disk.directory)
  {
    var d := fs.disk.directory;
    var o := UndelUnique(fs, name);
    if o.code == Ok {
      UndelRevivesFile(fs, name);
      var r := o.fs.disk.directory;
      var v := LookupDeleted(d, name).value;
      assert Lookup(d, name).None?;
      forall s, t | 0 <= s < t < |r| && r[s].inUse && r[t].inUse
        ensures r[s].filename != r[t].filename
      {
        if s != v && t != v {
          assert r[s] == d[s] && r[t] == d[t];
        } else if s == v {
          assert r[t] == d[t];
        } else {
          assert r[s] == d[s];
        }
      }
    }
  }

  /** Delete only takes entries out of use, so unique names stay unique. */
  lemma DeleteKeepsNamesUnique(fs: FS, name: string)
    requires WellShaped(fs.disk)
    requires UniqueNames(fs.disk.directory)
    ensures UniqueNames(Delete(fs, name).fs.disk.directory)
  {
    if Delete(fs, name).code == Ok {
      DeleteReleasesFile(fs, name);
    }
  }

  /** A successful undel sets the `in_use` flags of the first deleted entry with the name
      and of its inode, flags exactly the blocks the inode holds as in use, and leaves
      everything else alone. */
  lemma UndelRevivesFile(fs: FS, name: string)
    requires WellShaped(fs.disk)
    requires |name| > 0
    requires Undel(fs, name).code == Ok
    ensures LookupDeleted(fs.disk.directory, name).Some?
    ensures
      var d, r := fs.disk, Undel(fs, name).fs.disk;
      var s := LookupDeleted(d.directory, name).value;
      var v := InodeOf(d, s);
      && !d.inodes[v].inUse
      && r.directory[s] == d.directory[s].(inUse := true)
      && r.inodes[v] == d.inodes[v].(inUse := true)
      && (forall t :: 0 <= t < NUM_FILES && t != s ==> r.directory[t] == d.directory[t])
      && (forall i :: 0 <= i < NUM_FILES && i != v ==> r.inodes[i] == d.inodes[i])
      && (forall b :: 0 <= b < NUM_BLOCKS ==> (r.freeBlocks[b] <==> d.freeBlocks[b] && b !in Held(d.inodes[v])))
      && r.data == d.data && r.freeInodes == d.freeInodes
  {
  }

  /** Under the invariant, the file of an in-use entry owns only blocks flagged in use. */
  lemma HeldBlocksInUse(d: Disk, s: nat)
    requires Consistent(d)
    requires s < NUM_FILES && d.directory[s].inUse
    ensures d.inodes[InodeOf(d, s)].inUse
    ensures forall m :: 0 <= m < |Held(d.inodes[InodeOf(d, s)])| ==>
      IsDataBlock(Held(d.inodes[InodeOf(d, s)])[m]) && !d.freeBlocks[Held(d.inodes[InodeOf(d, s)])[m]]
  {
    var v := InodeOf(d, s);
    assert HoldsDataBlocks(d.inodes[v]);
    forall m | 0 <= m < |Held(d.inodes[v])|
      ensures !d.freeBlocks[Held(d.inodes[v])[m]]
    {
      assert Owned(d, Held(d.inodes[v])[m]);
    }
  }

  /** Delete raises the free-block count by the number of blocks the file owned. */
  lemma DeleteSpaceAccounting(fs: FS, name: string)
    requires Consistent(fs.disk)
    requires Delete(fs, name).code == Ok
    ensures Lookup(fs.disk.directory, name).Some?
    ensures FreeDataCount(Delete(fs, name).fs.disk.freeBlocks) ==
      FreeDataCount(fs.disk.freeBlocks) + |Held(fs.disk.inodes[InodeOf(fs.disk, Lookup(fs.disk.directory, name).value)])|
  {
    var s := Lookup(fs.disk.directory, name).value;
    var v := InodeOf(fs.disk, s);
    HeldBlocksInUse(fs.disk, s);
    MarkFreeCount(fs.disk.freeBlocks, Held(fs.disk.inodes[v]));
  }

  /** After `Release`, a data block is owned exactly when it was owned and is not the file's. */
  lemma ReleaseOwnership(d: Disk, s: nat)
    requires Consistent(d)
    requires s < NUM_FILES && d.directory[s].inUse
    ensures forall b :: IsDataBlock(b) ==>
      (Owned(Release(d, s), b) <==> Owned(d, b) && b !in Held(d.inodes[InodeOf(d, s)]))
  {
    var r := Release(d, s);
    var v := InodeOf(d, s);
    HeldBlocksInUse(d, s);
    forall b | IsDataBlock(b)
      ensures Owned(r, b) <==> Owned(d, b) && b !in Held(d.inodes[v])
    {
      if Owned(r, b) {
        var i :| 0 <= i < NUM_FILES && r.inodes[i].inUse && b in Held(r.inodes[i]);
        assert i != v && r.inodes[i] == d.inodes[i];
      }
      if Owned(d, b) && b !in Held(d.inodes[v]) {
        var i :| 0 <= i < NUM_FILES && d.inodes[i].inUse && b in Held(d.inodes[i]);
        assert r.inodes[i] == d.inodes[i];
      }
    }
  }

  /** `Release` keeps the tables linked one to one. */
  lemma ReleaseKeepsLinked(d: Disk, s: nat)
    requires Consistent(d)
    requires s < NUM_FILES && d.directory[s].inUse
    ensures Linked(Release(d, s))
  {
    var r := Release(d, s);
    var v := InodeOf(d, s);
    forall i | 0 <= i < NUM_FILES && r.inodes[i].inUse
      ensures exists t :: 0 <= t < NUM_FILES && r.directory[t].inUse && r.directory[t].inode == i
    {
      var t :| 0 <= t < NUM_FILES && d.directory[t].inUse && d.directory[t].inode == i;
      assert t != s && r.directory[t] == d.directory[t];
    }
  }

  /** Delete keeps the storage invariant. */
  lemma DeletePreservesConsistent(fs: FS, name: string)
    requires Consistent(fs.disk)
    ensures Consistent(Delete(fs, name).fs.disk)
  {
    if Delete(fs, name).code == Ok {
      var d := fs.disk;
      var s := Lookup(d.directory, name).value;
      var r := Release(d, s);
      ReleaseOwnership(d, s);
      ReleaseKeepsLinked(d, s);
      assert BitmapMatchesOwnership(r);
      assert forall i :: 0 <= i < NUM_FILES ==> Held(r.inodes[i]) == Held(d.inodes[i]);
    }
  }

  /** After `Reclaim` of a free inode, a data block is owned exactly when it was owned
      before or is the file's. */
  lemma ReclaimOwnership(d: Disk, s: nat)
    requires WellShaped(d)
    requires s < NUM_FILES && d.directory[s].filename != []
    requires !d.inodes[InodeOf(d, s)].inUse
    ensures forall b :: IsDataBlock(b) ==>
      (Owned(Reclaim(d, s), b) <==> Owned(d, b) || b in Held(d.inodes[InodeOf(d, s)]))
  {
    var r := Reclaim(d, s);
    var v := InodeOf(d, s);
    forall b | IsDataBlock(b)
      ensures Owned(r, b) <==> Owned(d, b) || b in Held(d.inodes[v])
    {
      if Owned(r, b) {
        var i :| 0 <= i < NUM_FILES && r.inodes[i].inUse && b in Held(r.inodes[i]);
        if i != v {
          assert r.inodes[i] == d.inodes[i];
        }
      }
      if Owned(d, b) {
        var i :| 0 <= i < NUM_FILES && d.inodes[i].inUse && b in Held(d.inodes[i]);
        assert r.inodes[i] == d.inodes[i];
      }
      if b in Held(d.inodes[v]) {
        assert r.inodes[v].inUse && b in Held(r.inodes[v]);
      }
    }
  }

  /** When no block of a free inode was taken, its blocks are free data blocks nobody owns. */
  lemma ReclaimedBlocksFree(d: Disk, v: nat)
    requires Consistent(d)
    requires v < NUM_FILES && !Taken(d, v)
    ensures forall b :: b in Held(d.inodes[v]) ==> IsDataBlock(b) && d.freeBlocks[b] && !Owned(d, b)
  {
    assert HoldsDataBlocks(d.inodes[v]);
    forall b | b in Held(d.inodes[v])
      ensures IsDataBlock(b) && d.freeBlocks[b] && !Owned(d, b)
    {
      var k :| 0 <= k < |Held(d.inodes[v])| && Held(d.inodes[v])[k] == b;
    }
  }

  /** `Reclaim` of a free inode through a deleted entry keeps the tables linked. */
  lemma ReclaimKeepsLinked(d: Disk, s: nat)
    requires Consistent(d)
    requires s < NUM_FILES && d.directory[s].filename != [] && !d.directory[s].inUse
    requires !d.inodes[InodeOf(d, s)].inUse
    ensures Linked(Reclaim(d, s))
  {
    var r := Reclaim(d, s);
    var v := InodeOf(d, s);
    forall i | 0 <= i < NUM_FILES && r.inodes[i].inUse
      ensures exists t :: 0 <= t < NUM_FILES && r.directory[t].inUse && r.directory[t].inode == i
    {
      if i == v {
        assert r.directory[s].inUse && r.directory[s].inode == i;
      } else {
        var t :| 0 <= t < NUM_FILES && d.directory[t].inUse && d.directory[t].inode == i;
        assert r.directory[t] == d.directory[t];
      }
    }
  }

  /** The checked undel keeps the storage invariant. */
  lemma UndelCheckedPreservesConsistent(fs: FS, name: string)
    requires Consistent(fs.disk)
    requires |name| > 0
    ensures Consistent(UndelChecked(fs, name).fs.disk)
  {
    if UndelChecked(fs, name).code == Ok {
      var d := fs.disk;
      var s := UndelTarget(fs, name).value;
      var v := InodeOf(d, s);
      var r := Reclaim(d, s);
      ReclaimOwnership(d, s);
      ReclaimedBlocksFree(d, v);
      ReclaimKeepsLinked(d, s);
      assert BitmapMatchesOwnership(r);
      assert forall i :: 0 <= i < NUM_FILES ==> Held(r.inodes[i]) == Held(d.inodes[i]);
      assert ExclusiveOwnership(r) by {
        forall i, j, b | 0 <= i < NUM_FILES && 0 <= j < NUM_FILES && i != j &&
            r.inodes[i].inUse && r.inodes[j].inUse && b in Held(r.inodes[i])
          ensures b !in Held(r.inodes[j])
        {
          if i == v {
            assert !Owned(d, b);
          } else if j == v {
            assert Owned(d, b);
          }
        }
      }
    }
  }

  /** Undel gives the blocks back to the file: the free count drops by their number. */
  lemma UndelSpaceAccounting(fs: FS, name: string)
    requires Consistent(fs.disk)
    requires |name| > 0
    requires UndelChecked(fs, name).code == Ok
    ensures UndelTarget(fs, name).Success?
    ensures FreeDataCount(UndelChecked(fs, name).fs.disk.freeBlocks) ==
      FreeDataCount(fs.disk.freeBlocks) - |Held(fs.disk.inodes[InodeOf(fs.disk, UndelTarget(fs, name).value)])|
  {
    var s := UndelTarget(fs, name).value;
    var v := InodeOf(fs.disk, s);
    ReclaimedBlocksFree(fs.disk, v);
    assert HoldsDataBlocks(fs.disk.inodes[v]);
    MarkUsedCount(fs.disk.freeBlocks, Held(fs.disk.inodes[v]));
  }

  /** Giving a file's blocks back and taking them again restores the bitmap. */
  lemma FlagsRestored(free: seq<bool>, held: seq<int>)
    requires forall b :: b in held && 0 <= b < |free| ==> !free[b]
    ensures MarkUsed(MarkFree(free, held), held) == free
  {
  }

  /** `Reclaim` undoes `Release`. */
  lemma ReleaseReclaim(d: Disk, s: nat)
    requires Consistent(d)
    requires s < NUM_FILES && d.directory[s].inUse && d.directory[s].filename != []
    ensures Reclaim(Release(d, s), s) == d
  {
    var v := InodeOf(d, s);
    var r := Release(d, s);
    HeldBlocksInUse(d, s);
    assert Held(r.inodes[v]) == Held(d.inodes[v]);
    forall b | b in Held(d.inodes[v]) && 0 <= b < NUM_BLOCKS
      ensures !d.freeBlocks[b]
    {
      var k :| 0 <= k < |Held(d.inodes[v])| && Held(d.inodes[v])[k] == b;
    }
    FlagsRestored(d.freeBlocks, Held(d.inodes[v]));
    var back := Reclaim(r, s);
    assert back.directory == d.directory;
    assert back.inodes == d.inodes;
  }

  /** No entry before slot `s` is a deleted file with this name. */
  predicate NoDeletedBefore(dir: seq<DirEntry>, name: string, s: nat) {
    forall t :: 0 <= t < s && t < |dir| ==> !(!dir[t].inUse && dir[t].filename == name)
  }

  /** After `Release` of the first in-use entry with a name that no deleted entry
      before it carries, that entry is the first deleted one with the name. */
  lemma ReleasedEntryFoundDeleted(d: Disk, name: string)
    requires WellShaped(d)
    requires Lookup(d.directory, name).Some?
    requires NoDeletedBefore(d.directory, name, Lookup(d.directory, name).value)
    ensures LookupDeleted(Release(d, Lookup(d.directory, name).value).directory, name) ==
      Lookup(d.directory, name)
  {
    var s := Lookup(d.directory, name).value;
    var r := Release(d, s);
    forall t | 0 <= t < s
      ensures !(!r.directory[t].inUse && r.directory[t].filename == name)
    {
      assert r.directory[t] == d.directory[t];
      assert !(d.directory[t].inUse && d.directory[t].filename == name);
      assert !(!d.directory[t].inUse && d.directory[t].filename == name);
    }
    assert !r.directory[s].inUse && r.directory[s].filename == name;
    var f := LookupDeleted(r.directory, name);
    assert f.Some? && f.value <= s;
  }

  /** After `Release`, every block the file lists is free again. */
  lemma ReleasedBlocksFree(d: Disk, s: nat)
    requires WellShaped(d)
    requires s < NUM_FILES && d.directory[s].inUse
    ensures !Taken(Release(d, s), InodeOf(d, s))
  {
    var v := InodeOf(d, s);
    var r := Release(d, s);
    assert Held(r.inodes[v]) == Held(d.inodes[v]);
  }

  /** After the delete, the released entry is the first deleted one with the name,
      and none of its blocks is taken. */
  lemma DeletedEntryIsUndelTarget(fs: FS, name: string)
    requires Consistent(fs.disk)
    requires |name| > 0
    requires Delete(fs, name).code == Ok
    requires NoDeletedBefore(fs.disk.directory, name, Lookup(fs.disk.directory, name).value)
    ensures UndelTarget(Delete(fs, name).fs, name) == Success(Lookup(fs.disk.directory, name).value)
    ensures !Taken(Delete(fs, name).fs.disk, InodeOf(fs.disk, Lookup(fs.disk.directory, name).value))
  {
    var s := Lookup(fs.disk.directory, name).value;
    ReleasedEntryFoundDeleted(fs.disk, name);
    ReleasedBlocksFree(fs.disk, s);
  }

  /** Delete followed by undel of the same name restores the image exactly, as long as
      no deleted entry before the file's slot carried the name: only `is_saved` stays cleared. */
  lemma DeleteUndelRoundTrip(fs: FS, name: string)
    requires Consistent(fs.disk)
    requires |name| > 0
    requires Delete(fs, name).code == Ok
    requires NoDeletedBefore(fs.disk.directory, name, Lookup(fs.disk.directory, name).value)
    ensures UndelChecked(Delete(fs, name).fs, name) == Outcome(Ok, fs.(isSaved := false))
  {
    var s := Lookup(fs.disk.directory, name).value;
    DeletedEntryIsUndelTarget(fs, name);
    ReleaseReclaim(fs.disk, s);
  }

  // ---------------------------------------------------------------------------
  // The source's commands, against the invariant
  // ---------------------------------------------------------------------------

  /** A file whose first block number is at least BLOCKS_PER_FILE gets none of its
      flags back from the source's delete: its blocks stay marked in use though no
      file owns them. */
  lemma DeleteAsWrittenLeaksBlocks(fs: FS, name: string)
    requires Consistent(fs.disk)
    requires DeleteTarget(fs, name).Success?
    requires |Held(fs.disk.inodes[InodeOf(fs.disk, DeleteTarget(fs, name).value)])| > 0
    requires Held(fs.disk.inodes[InodeOf(fs.disk, DeleteTarget(fs, name).value)])[0] >= BLOCKS_PER_FILE
    ensures DeleteAsWritten(fs, name).code == Ok
    ensures !BitmapMatchesOwnership(DeleteAsWritten(fs, name).fs.disk)
  {
    var d := fs.disk;
    var s := DeleteTarget(fs, name).value;
    var v := InodeOf(d, s);
    var b := Held(d.inodes[v])[0];
    var r := ReleaseAsWritten(d, s);
    HeldBlocksInUse(d, s);
    assert !r.freeBlocks[b];
    assert IsDataBlock(b);
    assert !Owned(r, b) by {
      forall i | 0 <= i < NUM_FILES && r.inodes[i].inUse
        ensures b !in Held(r.inodes[i])
      {
        assert i != v && r.inodes[i] == d.inodes[i];
      }
    }
  }

  /** A file whose first block lies below BLOCKS_PER_FILE frees, in the source, every
      flag from there up: a block another file owns in that range becomes free. */
  lemma DeleteAsWrittenFreesOtherFiles(fs: FS, name: string, c: int)
    requires Consistent(fs.disk)
    requires DeleteTarget(fs, name).Success?
    requires |Held(fs.disk.inodes[InodeOf(fs.disk, DeleteTarget(fs, name).value)])| > 0
    requires Held(fs.disk.inodes[InodeOf(fs.disk, DeleteTarget(fs, name).value)])[0] <= c < BLOCKS_PER_FILE
    requires c !in Held(fs.disk.inodes[InodeOf(fs.disk, DeleteTarget(fs, name).value)])
    requires Owned(fs.disk, c)
    ensures DeleteAsWritten(fs, name).code == Ok
    ensures !BitmapMatchesOwnership(DeleteAsWritten(fs, name).fs.disk)
  {
    var d := fs.disk;
    var s := DeleteTarget(fs, name).value;
    var v := InodeOf(d, s);
    var r := ReleaseAsWritten(d, s);
    assert r.freeBlocks[c];
    var i :| 0 <= i < NUM_FILES && d.inodes[i].inUse && c in Held(d.inodes[i]);
    assert i != v;
    assert r.inodes[i] == d.inodes[i];
    assert HoldsDataBlocks(d.inodes[i]);
    var k :| 0 <= k < |Held(d.inodes[i])| && Held(d.inodes[i])[k] == c;
    assert IsDataBlock(c);
    assert Owned(r, c);
  }

  /** The source's undel of a file whose first block number is at least
      BLOCKS_PER_FILE takes none of its flags back: the revived file owns blocks the
      bitmap still offers to the next insert. */
  lemma UndelAsWrittenLeavesBlocksFree(fs: FS, name: string)
    requires WellShaped(fs.disk)
    requires |name| > 0
    requires UndelTarget(fs, name).Success?
    requires |Held(fs.disk.inodes[InodeOf(fs.disk, UndelTarget(fs, name).value)])| > 0
    requires IsDataBlock(Held(fs.disk.inodes[InodeOf(fs.disk, UndelTarget(fs, name).value)])[0])
    requires Held(fs.disk.inodes[InodeOf(fs.disk, UndelTarget(fs, name).value)])[0] >= BLOCKS_PER_FILE
    requires fs.disk.freeBlocks[Held(fs.disk.inodes[InodeOf(fs.disk, UndelTarget(fs, name).value)])[0]]
    ensures UndelAsWritten(fs, name).code == Ok
    ensures !BitmapMatchesOwnership(UndelAsWritten(fs, name).fs.disk)
  {
    var d := fs.disk;
    var s := UndelTarget(fs, name).value;
    var v := InodeOf(d, s);
    var b := Held(d.inodes[v])[0];
    var r := ReclaimAsWritten(d, s);
    assert r.freeBlocks[b];
    assert r.inodes[v].inUse && b in Held(r.inodes[v]);
    assert Owned(r, b);
  }

  /** The unchecked undel of a file one of whose blocks another file now owns
      succeeds and leaves that block owned by two files. */
  lemma UndelRevivesTakenBlock(fs: FS, name: string)
    requires Consistent(fs.disk)
    requires |name| > 0
    requires UndelTarget(fs, name).Success?
    requires Taken(fs.disk, InodeOf(fs.disk, UndelTarget(fs, name).value))
    ensures Undel(fs, name).code == Ok
    ensures !ExclusiveOwnership(Undel(fs, name).fs.disk)
  {
    var d := fs.disk;
    var s := UndelTarget(fs, name).value;
    var v := InodeOf(d, s);
    var r := Reclaim(d, s);
    var k :| 0 <= k < |Held(d.inodes[v])| && 0 <= Held(d.inodes[v])[k] < NUM_BLOCKS &&
      !d.freeBlocks[Held(d.inodes[v])[k]];
    var b := Held(d.inodes[v])[k];
    assert HoldsDataBlocks(d.inodes[v]);
    assert IsDataBlock(b);
    var i :| 0 <= i < NUM_FILES && d.inodes[i].inUse && b in Held(d.inodes[i]);
    assert i != v;
    assert r.inodes[i] == d.inodes[i];
    assert r.inodes[v].inUse && b in Held(r.inodes[v]);
  }
}

=== FILE: space.dfy ===
/**
 `df`: the free space of the data region, in bytes, and how insert and delete
 move it.
 */
module Space {
  import opened Layout
  import opened Alloc
  import opened Tables
  import Insert
  import Remove

  /** The free data blocks are data blocks, so there are at most as many as the region has. */
  lemma FreeDataBound(free: seq<bool>)
    requires |free| == NUM_BLOCKS
    ensures FreeDataCount(free) <= NUM_BLOCKS - FIRST_DATA_BLOCK
  {
    DataBlocksCard(NUM_BLOCKS);
    assert FreeDataSet(free) <= DataBlocksBelow(NUM_BLOCKS);
    SubsetCard(FreeDataSet(free), DataBlocksBelow(NUM_BLOCKS));
  }

  lemma SubsetCard(a: set<int>, b: set<int>)
    requires a <= b
    ensures |a| <= |b|
  {
    assert b == a + (b - a);
  }

  /** `df`, with the command loop's open-image check: free data blocks times the
      block size. The result fits the source's 32-bit unsigned return type. */
  function Df(fs: FS): (r: Result<nat>)
    requires WellShaped(fs.disk)
    ensures r.Failure? <==> !fs.imageOpen
    ensures r.Failure? ==> r.code == NotOpen
    ensures r.Success? ==> r.value % BLOCK_SIZE == 0
    ensures r.Success? ==> r.value <= (NUM_BLOCKS - FIRST_DATA_BLOCK) * BLOCK_SIZE < 0x1_0000_0000
  {
    if !fs.imageOpen then Failure(NotOpen)
    else
      FreeDataBound(fs.disk.freeBlocks);
      Success(FreeDataCount(fs.disk.freeBlocks) * BLOCK_SIZE)
  }

  /** Under the invariant, `df` is the data region less the blocks the files own. */
  lemma DfAccounting(fs: FS)
    requires Consistent(fs.disk) && fs.imageOpen
    ensures Df(fs).Success?
    ensures Df(fs).value == ((NUM_BLOCKS - FIRST_DATA_BLOCK) - HeldTotal(fs.disk.inodes, NUM_FILES)) * BLOCK_SIZE
  {
    FreeCountAccounting(fs.disk);
  }

  /** A successful insert lowers `df` by the bytes of the blocks it claimed. */
  lemma InsertLowersDf(fs: FS, name: string, source: Option<seq<byte>>)
    requires WellShaped(fs.disk)
    requires Insert.Insert(fs, name, source).code == Ok
    ensures source.Some? && Df(fs).Success? && Df(Insert.Insert(fs, name, source).fs).Success?
    ensures Df(Insert.Insert(fs, name, source).fs).value ==
      Df(fs).value - Insert.RequiredBlocks(|source.value|) * BLOCK_SIZE
  {
    Insert.InsertSpaceAccounting(fs, name, source);
    var k := Insert.RequiredBlocks(|source.value|);
    DfShift(Insert.Insert(fs, name, source).fs, fs, k);
  }

  /** A successful delete raises `df` by the bytes of the blocks the file owned. */
  lemma DeleteRaisesDf(fs: FS, name: string)
    requires Consistent(fs.disk) && fs.imageOpen
    requires Remove.Delete(fs, name).code == Ok
    ensures Lookup(fs.disk.directory, name).Some? && Df(Remove.Delete(fs, name).fs).Success?
    ensures Df(Remove.Delete(fs, name).fs).value ==
      Df(fs).value + |Held(fs.disk.inodes[Remove.InodeOf(fs.disk, Lookup(fs.disk.directory, name).value)])| * BLOCK_SIZE
  {
    Remove.DeleteSpaceAccounting(fs, name);
    var n := |Held(fs.disk.inodes[Remove.InodeOf(fs.disk, Lookup(fs.disk.directory, name).value)])|;
    DfShift(fs, Remove.Delete(fs, name).fs, n);
  }

  lemma DfShift(fs: FS, after: FS, n: int)
    requires WellShaped(fs.disk) && WellShaped(after.disk)
    requires fs.imageOpen && after.imageOpen
    requires FreeDataCount(after.disk.freeBlocks) == FreeDataCount(fs.disk.freeBlocks) + n
    ensures Df(fs).Success? && Df(after).Success?
    ensures Df(after).value == Df(fs).value + n * BLOCK_SIZE
  {
  }

  /** The counting loop of `df` and `file_insert` computes the same count. */
  method DfCount(fs: FS) returns (r: Result<nat>)
    requires WellShaped(fs.disk)
    ensures r == Df(fs)
  {
    if !fs.imageOpen {
      return Failure(NotOpen);
    }
    var count := CountFreeData(fs.disk.freeBlocks);
    r := Success(count * BLOCK_SIZE);
  }
}

=== FILE: tables.dfy ===
/**
 The directory and inode tables: name lookup, slot selection, the blocks a
 file owns, the table reset of `init`/`createfs`, and the invariant tying the
 inode table to the free-block bitmap.
 */
module Tables {
  import opened Layout
  import opened Alloc

  /** The blocks an inode owns: its block list up to the first sentinel. */
  function Held(ino: Inode): (h: seq<int>)
    ensures |h| <= |ino.blocks|
    ensures forall k :: 0 <= k < |h| ==> h[k] == ino.blocks[k] && h[k] != SENTINEL
    ensures |h| < |ino.blocks| ==> ino.blocks[|h|] == SENTINEL
  {
    match FirstIndex(ino.blocks, (b: int) => b == SENTINEL)
    case Some(n) => ino.blocks[..n]
    case None => ino.blocks
  }

  /** `findFreeInodeBlock` reports the position just past the owned blocks. */
  lemma FindFreeInodeBlockIsHeldCount(ino: Inode)
    requires |ino.blocks| == BLOCKS_PER_FILE
    ensures FindFreeInodeBlock(ino) == (if |Held(ino)| < BLOCKS_PER_FILE then |Held(ino)| else -1)
  {
  }

  /** An inode's owned blocks are distinct data blocks. */
  predicate HoldsDataBlocks(ino: Inode) {
    && Distinct(Held(ino))
    && forall k :: 0 <= k < |Held(ino)| ==> IsDataBlock(Held(ino)[k])
  }

  /** First in-use entry with this exact name, in table order. */
  function Lookup(dir: seq<DirEntry>, name: string): (r: Option<nat>)
    ensures r.Some? ==> r.value < |dir| && dir[r.value].inUse && dir[r.value].filename == name
    ensures r.Some? ==> forall s :: 0 <= s < r.value ==> !(dir[s].inUse && dir[s].filename == name)
    ensures r.None? <==> forall s :: 0 <= s < |dir| ==> !(dir[s].inUse && dir[s].filename == name)
  {
    FirstIndex(dir, (e: DirEntry) => e.inUse && e.filename == name)
  }

  /** No two in-use entries carry the same name, so the first-match `Lookup` finds the
      only one. */
  predicate UniqueNames(dir: seq<DirEntry>) {
    forall s, t :: 0 <= s < t < |dir| && dir[s].inUse && dir[t].inUse ==> dir[s].filename != dir[t].filename
  }

  /** First entry NOT in use with this exact name: the search of `undel`. */
  function LookupDeleted(dir: seq<DirEntry>, name: string): (r: Option<nat>)
    ensures r.Some? ==> r.value < |dir| && !dir[r.value].inUse && dir[r.value].filename == name
    ensures r.Some? ==> forall s :: 0 <= s < r.value ==> !(!dir[s].inUse && dir[s].filename == name)
    ensures r.None? <==> forall s :: 0 <= s < |dir| ==> !(!dir[s].inUse && dir[s].filename == name)
  {
    FirstIndex(dir, (e: DirEntry) => !e.inUse && e.filename == name)
  }

  /** First directory slot not in use. */
  function FreeDirectorySlot(dir: seq<DirEntry>): (r: Option<nat>)
    ensures r.Some? ==> r.value < |dir| && !dir[r.value].inUse
    ensures r.Some? ==> forall s :: 0 <= s < r.value ==> dir[s].inUse
    ensures r.None? <==> forall s :: 0 <= s < |dir| ==> dir[s].inUse
  {
    FirstIndex(dir, (e: DirEntry) => !e.inUse)
  }

  /** First inode whose `in_use` is clear (insert consults this, not the inode bitmap). */
  function FreeInodeSlot(inodes: seq<Inode>): (r: Option<nat>)
    ensures r.Some? ==> r.value < |inodes| && !inodes[r.value].inUse
    ensures r.Some? ==> forall i :: 0 <= i < r.value ==> inodes[i].inUse
    ensures r.None? <==> forall i :: 0 <= i < |inodes| ==> inodes[i].inUse
  {
    FirstIndex(inodes, (ino: Inode) => !ino.inUse)
  }

  /** Some in-use inode owns data block `b`. */
  ghost predicate Owned(d: Disk, b: int) {
    exists i :: 0 <= i < |d.inodes| && d.inodes[i].inUse && b in Held(d.inodes[i])
  }

  /** No block belongs to two in-use inodes. */
  ghost predicate ExclusiveOwnership(d: Disk) {
    forall i, j, b ::
      (0 <= i < |d.inodes| && 0 <= j < |d.inodes| && i != j &&
       d.inodes[i].inUse && d.inodes[j].inUse && b in Held(d.inodes[i])) ==> b !in Held(d.inodes[j])
  }

  /** A data block is flagged free exactly when no in-use inode owns it. */
  ghost predicate BitmapMatchesOwnership(d: Disk)
    requires |d.freeBlocks| == NUM_BLOCKS
  {
    forall b :: IsDataBlock(b) ==> (d.freeBlocks[b] <==> !Owned(d, b))
  }

  /** In-use directory entries and in-use inodes correspond one to one. */
  ghost predicate Linked(d: Disk)
    requires WellShaped(d)
  {
    && (forall s :: 0 <= s < NUM_FILES && d.directory[s].inUse ==> d.inodes[d.directory[s].inode].inUse)
    && (forall s, t :: 0 <= s < t < NUM_FILES && d.directory[s].inUse && d.directory[t].inUse ==>
          d.directory[s].inode != d.directory[t].inode)
    && (forall i :: 0 <= i < NUM_FILES && d.inodes[i].inUse ==>
          exists s :: 0 <= s < NUM_FILES && d.directory[s].inUse && d.directory[s].inode == i)
  }

  /** The storage invariant every command should keep. */
  ghost predicate Consistent(d: Disk) {
    && WellShaped(d)
    && (forall i :: 0 <= i < NUM_FILES ==> HoldsDataBlocks(d.inodes[i]))
    && ExclusiveOwnership(d)
    && BitmapMatchesOwnership(d)
    && Linked(d)
  }

  /** Blocks owned by the in-use inodes among the first `n`, summed per inode. */
  function HeldTotal(inodes: seq<Inode>, n: nat): nat
    requires n <= |inodes|
  {
    if n == 0 then 0
    else HeldTotal(inodes, n - 1) + (if inodes[n - 1].inUse then |Held(inodes[n - 1])| else 0)
  }

  /** Some in-use inode among the first `n` owns block `b`. */
  ghost predicate OwnedBelow(d: Disk, n: nat, b: int) {
    exists i :: 0 <= i < n && i < |d.inodes| && d.inodes[i].inUse && b in Held(d.inodes[i])
  }

  ghost function OwnedBelowSet(d: Disk, n: nat): set<int> {
    set b | FIRST_DATA_BLOCK <= b < NUM_BLOCKS && OwnedBelow(d, n, b)
  }

  lemma {:induction false} OwnedBelowCard(d: Disk, n: nat)
    requires Consistent(d)
    requires n <= NUM_FILES
    ensures |OwnedBelowSet(d, n)| == HeldTotal(d.inodes, n)
  {
    if n == 0 {
      assert OwnedBelowSet(d, 0) == {};
    } else {
      OwnedBelowCard(d, n - 1);
      var ino := d.inodes[n - 1];
      var below := OwnedBelowSet(d, n - 1);
      if ino.inUse {
        OwnedBelowStep(d, n);
        OwnedBelowDisjoint(d, n);
        DistinctCard(Held(ino));
      } else {
        OwnedBelowUnused(d, n);
      }
    }
  }

  /** The blocks of inode `n - 1` are owned by none of the inodes before it. */
  lemma OwnedBelowDisjoint(d: Disk, n: nat)
    requires Consistent(d)
    requires 0 < n <= NUM_FILES
    requires d.inodes[n - 1].inUse
    ensures OwnedBelowSet(d, n - 1) !! ToSet(Held(d.inodes[n - 1]))
  {
    var below := OwnedBelowSet(d, n - 1);
    var mine := ToSet(Held(d.inodes[n - 1]));
    forall b | b in below
      ensures b !in mine
    {
      var i :| 0 <= i < n - 1 && d.inodes[i].inUse && b in Held(d.inodes[i]);
    }
  }

  /** An unused inode adds nothing to the owned blocks. */
  lemma OwnedBelowUnused(d: Disk, n: nat)
    requires 0 < n <= |d.inodes|
    requires !d.inodes[n - 1].inUse
    ensures OwnedBelowSet(d, n) == OwnedBelowSet(d, n - 1)
  {
    forall b | b in OwnedBelowSet(d, n)
      ensures b in OwnedBelowSet(d, n - 1)
    {
      var i :| 0 <= i < n && i < |d.inodes| && d.inodes[i].inUse && b in Held(d.inodes[i]);
      assert i < n - 1;
    }
  }

  lemma OwnedBelowStep(d: Disk, n: nat)
    requires Consistent(d)
    requires 0 < n <= NUM_FILES
    requires d.inodes[n - 1].inUse
    ensures OwnedBelowSet(d, n) == OwnedBelowSet(d, n - 1) + ToSet(Held(d.inodes[n - 1]))
  {
    var ino := d.inodes[n - 1];
    assert HoldsDataBlocks(ino);
    forall b | b in OwnedBelowSet(d, n)
      ensures b in OwnedBelowSet(d, n - 1) + ToSet(Held(ino))
    {
      var i :| 0 <= i < n && d.inodes[i].inUse && b in Held(d.inodes[i]);
      if i < n - 1 {
        assert OwnedBelow(d, n - 1, b);
      }
    }
    forall b | b in ToSet(Held(ino))
      ensures b in OwnedBelowSet(d, n)
    {
      var k :| 0 <= k < |Held(ino)| && Held(ino)[k] == b;
      assert IsDataBlock(Held(ino)[k]);
      assert OwnedBelow(d, n, b);
    }
  }

  /** The data region as a set. */
  ghost function DataBlocksBelow(hi: int): set<int> {
    set j | FIRST_DATA_BLOCK <= j < hi && IsDataBlock(j)
  }

  lemma {:induction false} DataBlocksCard(hi: int)
    requires FIRST_DATA_BLOCK <= hi <= NUM_BLOCKS
    ensures |DataBlocksBelow(hi)| == hi - FIRST_DATA_BLOCK
    decreases hi
  {
    if hi > FIRST_DATA_BLOCK {
      DataBlocksCard(hi - 1);
      assert DataBlocksBelow(hi) == DataBlocksBelow(hi - 1) + {hi - 1};
    } else {
      assert DataBlocksBelow(hi) == {};
    }
  }

  /** Free-space accounting: the free data blocks are the data blocks minus
      those owned, block for block, by the in-use inodes. */
  lemma FreeCountAccounting(d: Disk)
    requires Consistent(d)
    ensures FreeDataCount(d.freeBlocks) == (NUM_BLOCKS - FIRST_DATA_BLOCK) - HeldTotal(d.inodes, NUM_FILES)
  {
    var data := DataBlocksBelow(NUM_BLOCKS);
    var owned := OwnedBelowSet(d, NUM_FILES);
    DataBlocksCard(NUM_BLOCKS);
    OwnedBelowCard(d, NUM_FILES);
    assert FreeDataSet(d.freeBlocks) !! owned;
    assert data == FreeDataSet(d.freeBlocks) + owned;
  }

  /** A directory slot after the reset: no name, inode -1, every flag clear. */
  const EMPTY_ENTRY: DirEntry := DirEntry([], false, SENTINEL, false, false)

  /** An inode after the reset: every block-list entry -1, every field zero. */
  const EMPTY_INODE: Inode := Inode(seq(BLOCKS_PER_FILE, _ => SENTINEL), false, 0, 0)

  /** An inode as the reset leaves it: not in use, no attribute, size 0, and -1 in
      every entry of its block list. */
  predicate EmptyInode(ino: Inode) {
    && !ino.inUse && ino.attribute == 0 && ino.fileSize == 0
    && |ino.blocks| == BLOCKS_PER_FILE
    && forall k :: 0 <= k < |ino.blocks| ==> ino.blocks[k] == SENTINEL
  }

  /** The table reset of `init` and `createfs`, over the given block contents. */
  function ResetDisk(data: seq<Block>): (d: Disk)
    requires |data| == NUM_BLOCKS
    requires forall b :: 0 <= b < NUM_BLOCKS ==> |data[b]| == BLOCK_SIZE
    ensures Consistent(d)
    ensures FreeDataCount(d.freeBlocks) == NUM_BLOCKS - FIRST_DATA_BLOCK
    ensures forall s :: 0 <= s < NUM_FILES ==> d.directory[s] == EMPTY_ENTRY
    ensures forall i :: 0 <= i < NUM_FILES ==> EmptyInode(d.inodes[i]) && Held(d.inodes[i]) == []
    ensures forall i :: 0 <= i < NUM_FILES ==> d.freeInodes[i]
    ensures forall b :: 0 <= b < NUM_BLOCKS ==> d.freeBlocks[b]
    ensures d.data == data
  {
    var d := Disk(
      seq(NUM_FILES, _ => EMPTY_ENTRY),
      seq(NUM_FILES, _ => EMPTY_INODE),
      seq(NUM_BLOCKS, _ => true),
      seq(NUM_FILES, _ => true),
      data);
    assert FreeDataSet(d.freeBlocks) == DataBlocksBelow(NUM_BLOCKS);
    DataBlocksCard(NUM_BLOCKS);
    assert forall i :: 0 <= i < NUM_FILES ==> Held(d.inodes[i]) == [];
    d
  }
}
